=== FILE: README.md ===
# gps-no-fw core, modelled in Dafny

This project models the sequential core of the gps-no-fw ESP32 node
firmware. It also proves properties of that model. Every component is an
immutable state record with pure step functions. The radio, the MQTT
transport, the HTTP client, the JSON parser and the flash writer are
reduced to the answers they give. Those answers are parameters, and the
requests made of them are returned as lists of calls. All timers are
unsigned 32-bit and use wrapping subtraction (`U32.Sub`, `U32.Elapsed`).

The model covers six components:

- **Topic matching** (`TopicMatch`). `matchTopic` is an index-walking
  method. It is proved equal to a recursive reference, `Matches`, and the
  `+` and `#` behaviour is characterised by lemmas.
- **MQTT manager** (`MqttManager`) covers:
  - `begin`, `connect` and `disconnect`, with replay of the subscription
    registry;
  - `subscribe`, `unsubscribe` and `publish` guards;
  - the retry-gated `update`;
  - `handleCallback` dispatch to every matching subscription.
- **WiFi manager** (`WifiManager`): the `WiFiStatus` machine, with an
  8-bit attempt counter, a hard cap and timer-gated retries and
  reconnects. The driver's link state is one boolean per step.
- **Update controller** (`Version`, `UpdateState`) covers:
  - `compareVersion`, including its `v`-stripping quirk;
  - the check-interval gate, which is re-evaluated on every tick;
  - the phase machine;
  - asset selection;
  - byte accounting of the 128-byte chunked download.
- **Device controller** (`Device`): the `changeState` exit/enter order and
  `update`, which runs the active state's update and then the heartbeat.
  Both are recorded as an event trace. `Lifecycle` plugs the update
  controller into the device loop.
- **Error codes** (`ErrorCodes`) and **logger** (`Logger`):
  - the category range predicates;
  - the level filter, with self-repair of an invalid threshold;
  - the level names;
  - the `snprintf`-truncated output line.

Shared helpers: `Wrappers.Option`, `U32` (32-bit wrap-around), and
`Numerals` (decimal and lower-case hex rendering with their values).

## Model

| member | source | states |
|---|---|---|
| `TopicMatch.MatchTopic` | src/MQTTManager.cpp:15-36 | The two-cursor walk returns true exactly when the filter matches the topic under the recursive reference semantics `Matches` |
| `TopicMatch.SegmentEnd` | src/MQTTManager.cpp:20-24 | The `+` skip stops at the first `/` at or after the cursor, or at the end of the topic, and passes no `/` on the way |
| `TopicMatch.LiteralMatchesOnlyItself` | src/MQTTManager.cpp:19-35 | A filter without `+` or `#` matches a topic iff the two are identical, so "a/b" does not match "a/b/c" |
| `TopicMatch.HashMatchesRemainder` | src/MQTTManager.cpp:19-35 | A literal prefix followed by `#` matches exactly the topics that extend the prefix by at least one character; what follows `#` is never read |
| `TopicMatch.PlusConsumesOneSegment` | src/MQTTManager.cpp:20-24 | A `+` consumes exactly one non-empty-topic segment up to the next `/`, and matching continues with the rest |
| `TopicMatch.PlusNeedsARemainingCharacter` | src/MQTTManager.cpp:19-35 | A `+` does not match once the topic is exhausted, so "a/+" does not match "a/" |
| `TopicMatch.SingleLevelExample` | src/MQTTManager.cpp:20-24 | "a/+/c" matches "a/b/c" but not "a/b/b/c" |
| `TopicMatch.MultiLevelExample` | src/MQTTManager.cpp:25-26 | "a/#" matches "a/b/c/d" but not "a/" |
| `TopicMatch.BoundaryExamples` | src/MQTTManager.cpp:19-35 | "a/+" does not match "a/", and "a/b" does not match "a/b/c" |
| `MqttManager.ClientId` | src/MQTTManager.cpp:53 | The client id is the device name, a dash, then lower-case hex digits without a leading zero whose value is the chip id truncated to 32 bits |
| `MqttManager.Begin` | src/MQTTManager.cpp:38-59 | Once initialised, begin succeeds with no effect; otherwise it succeeds iff the broker is non-empty and the port is non-zero, and only then sets the server and becomes initialised |
| `MqttManager.Resubscribe` | src/MQTTManager.cpp:84-86 | One subscribe request per registry entry, in registration order |
| `MqttManager.Connect` | src/MQTTManager.cpp:61-95 | Fails before begin; already connected is a success with no calls; otherwise one open (with credentials iff a user is set); on acceptance every registered topic is re-subscribed in order; only the connection flag can change, so the identity, the registry and the retry stamp are reused |
| `MqttManager.Disconnect` | src/MQTTManager.cpp:97-102 | Ends disconnected, closes the transport only if it was connected, and changes nothing else, so a later connect needs no new begin |
| `MqttManager.Subscribe` | src/MQTTManager.cpp:104-132 | Not connected: fails; topic already registered: fails without asking the transport; otherwise the result is the transport's answer and exactly one entry is appended iff it accepts; nothing else changes and unique topics stay unique |
| `MqttManager.RemoveTopic` | src/MQTTManager.cpp:141-150 | The erase/remove_if keeps exactly the entries whose topic differs, as an order-preserving subsequence, shorter by the number of equal topics |
| `MqttManager.Unsubscribe` | src/MQTTManager.cpp:134-155 | Not connected: fails untouched; on acceptance exactly the entries with the topic are removed (`RemoveTopic`), all others stay in order, duplicates included; on refusal the registry is unchanged; uniqueness is preserved |
| `MqttManager.Publish` | src/MQTTManager.cpp:157-171 | Succeeds iff connected and the transport accepts; the request is issued only when connected; the manager state never changes |
| `MqttManager.Update` | src/MQTTManager.cpp:173-191 | Nothing before begin; connected: only the message pump, never a connect; disconnected: a full `connect` attempt, with its replay of every registered topic, iff the retry interval has elapsed (wrapping), stamping now, reset to 0 on success; only the connection flag and the stamp can change |
| `MqttManager.HandleCallback` | src/MQTTManager.cpp:3-13 | Invokes the callback of every subscription whose filter matches the topic, each once, in registration order, and no other |
| `MqttManager.RegistryStaysUnique` | src/MQTTManager.cpp:104-155 | Over any sequence of manager operations the registry never holds a topic twice |
| `MqttManager.SubscribeTwice` | src/MQTTManager.cpp:110-115 | A second subscribe to the same topic fails without a transport call and leaves the single entry of the first |
| `WifiManager.Begin` | src/WifiManager.cpp:16-31 | Starts (and sets station mode) iff SSID and password are both non-empty; a missing SSID is reported first |
| `WifiManager.Connect` | src/WifiManager.cpp:37-56 | Always returns true; connected: no effect; otherwise associates and enters Connecting with one attempt at the current time |
| `WifiManager.Disconnect` | src/WifiManager.cpp:58-63 | Always ends Disconnected with the counters kept |
| `WifiManager.Update` | src/WifiManager.cpp:65-103 | Connecting+link: Connected, counter 0; Connecting without link: counts an attempt (8-bit) only when the check interval elapsed, and fails iff the new count reaches the maximum; Connected and lost: Disconnected, reconnecting at once iff auto-reconnect and the reconnect interval elapsed; all else inert |
| `WifiManager.IsConnected` | src/WifiManager.cpp:33-35 | Connected iff the manager's status is CONNECTED and the driver reports the link up; `ConnectedAfterUpdate` relates it to one update |
| `WifiManager.StatusString` | src/WifiManager.cpp:4-14 | Each status has its own name; only UNINITIALIZED, which the switch lacks, prints UNKNOWN |
| `WifiManager.StatusStringInjective` | src/WifiManager.cpp:4-14 | Distinct statuses print differently |
| `WifiManager.ConnectedAfterUpdate` | src/WifiManager.cpp:33-35 | After an update, isConnected holds iff the driver reports a link and the manager was Connecting or Connected |
| `WifiManager.InertStatusesStay` | src/WifiManager.cpp:65-103 | Any number of updates leave Disconnected, ConnectionFailed, WrongPassword and NoSsidAvailable unchanged |
| `WifiManager.AttemptCap` | src/WifiManager.cpp:79-91 | From Connecting with a attempts, each elapsed link-less poll counts one; the status is Connecting until the count meets the maximum and ConnectionFailed from then on |
| `WifiManager.ConnectedOnlyFromConnecting` | src/WifiManager.cpp:67-77 | Update reaches Connected only from Connecting with the link up, and then the counter is 0 |
| `Version.ScanFrom` | src/states/UpdateState.cpp:214-224 | The comparison loop answers true iff some component is larger and all earlier components are equal |
| `Version.ScanIsNewer` | src/states/UpdateState.cpp:214-224 | The loop decides exactly the lexicographic major/minor/patch order |
| `Version.NewerIsStrictTotalOrder` | src/states/UpdateState.cpp:214-224 | That order is irreflexive, asymmetric, transitive and total on distinct versions |
| `Version.ParseFormat` | src/states/UpdateState.cpp:210-212 | The `%d.%d.%d` reading of a canonical version text gives back the version |
| `Version.Parse` | src/states/UpdateState.cpp:210-212 | A text reads as a version only when it starts with a digit run closed by a dot, and that run is the major component; `ParseFormat` is its inverse |
| `Version.Fields` | src/states/UpdateState.cpp:211-212 | `sscanf` fills components in order: a digit run, and past a following dot the next, until a conversion fails; a component is read iff the text holds a digit run in its place, so nothing the text holds is dropped |
| `Version.Scan` | src/states/UpdateState.cpp:211-212 | At most three components are filled, all three exactly when the text reads as a version, and then they are its components |
| `Version.Decide` | src/states/UpdateState.cpp:214-224 | The loop on partly filled arrays is undefined exactly when the filled components agree and one array is short; it answers true iff the first differing filled component is larger in the candidate; on full arrays it is the plain loop |
| `Version.CompareVersion` | src/states/UpdateState.cpp:201-225 | After stripping `v` from the current version when present, and from the candidate when the member newVersion starts with `v`: two full versions compare by strict newness; otherwise the answer is undefined exactly when the loop reaches an unfilled component, and true iff the first differing filled component is larger in the candidate; an empty tag is always undefined |
| `Version.CompareCanonical` | src/states/UpdateState.cpp:201-225 | When the candidate's `v` agrees with the member's, canonical texts compare by the reference order |
| `Version.VPrefixQuirk` | src/states/UpdateState.cpp:202-204 | Before any update is found a `v`-tag does not read as a version; after a `v`-tag, a plain tag loses its first digit |
| `Version.NewerPatchExample` | src/states/UpdateState.cpp:214-218 | 1.0.2 is newer than 1.0.1 |
| `Version.OlderMinorExample` | src/states/UpdateState.cpp:214-221 | 1.1.9 is not newer than 1.2.0 |
| `Version.PartialTagExample` | src/states/UpdateState.cpp:210-216 | A tag `sscanf` fills only partly still decides from the filled components: 1.1 is newer than 1.0.0 |
| `Version.PartialTagUndecided` | src/states/UpdateState.cpp:210-224 | 1.0 against 1.0.0 reaches the unfilled patch, so the answer is undefined |
| `Version.StrippedEqualExample` | src/states/UpdateState.cpp:206-208 | The current version's `v` is always stripped, so v1.0.0 against 1.0.0 is not an update |
| `UpdateState.Enter` | src/states/UpdateState.cpp:3-6 | Entering resets the phase to CHECK_VERSION and keeps every other member, including the last check time |
| `UpdateState.CheckUpdateConditions` | src/states/UpdateState.cpp:55-65 | Passes iff there was no check yet or the interval elapsed (wrapping), and stamps the check time exactly when it passes |
| `UpdateState.FirmwareAssetFrom` | src/states/UpdateState.cpp:109-118 | Finds the first asset named exactly firmware.bin, and none iff there is no such asset |
| `UpdateState.CheckLatestRelease` | src/states/UpdateState.cpp:67-137 | 404 and other codes fail with their report; success iff 200, a non-empty parsable body, a tag, a firmware asset and a tag the comparison finds newer (also a partly read one such as 1.1); only success records the tag; a 200 reply with a non-empty, parsable, tagged body that has a firmware asset records the URL of the first asset named exactly `firmware.bin`, even when the version is not newer, and every other reply leaves the URL unchanged |
| `UpdateState.BytesRead` | src/states/UpdateState.cpp:168-171 | A read takes at most 128 bytes, at most what is available and at most what the stream returned |
| `UpdateState.Percent` | src/states/UpdateState.cpp:181 | The progress figure always fits a signed 32-bit `int`, whatever the wrapped product |
| `UpdateState.PercentOfRealisticImage` | src/states/UpdateState.cpp:181 | For an image below 42,949,672 bytes the 32-bit product does not wrap and the progress is the true percentage, between 0 and 100 |
| `UpdateState.Pump` | src/states/UpdateState.cpp:164-185 | Each chunk starts below the total, is at most 128 bytes and adds exactly its size to the count, so the final count is the start plus all chunk sizes; no chunk is read at or after a disconnected poll |
| `UpdateState.ProgressReports` | src/states/UpdateState.cpp:181-182 | One progress figure per chunk, computed from the count after that chunk |
| `UpdateState.ProgressFollowsChunks` | src/states/UpdateState.cpp:180-182 | The count after each chunk is the sum of all chunks so far |
| `UpdateState.DownloadAndInstall` | src/states/UpdateState.cpp:140-199 | No URL fails at once; every failure ends FAILED; finalize is attempted iff all announced bytes were written without a short write; success iff finalize succeeds; the flash write is aborted iff there is a URL and the reply is not 200, or the stream ended short or finalising failed after a successful begin; a short write fails without finalize or abort; only the phase and the image size change, the size only after a 200 reply (to the announced size as `size_t`), so the URL, tag and check stamp are kept; each report is the percentage of bytes so far, then 100 on success |
| `UpdateState.ShortStreamFails` | src/states/UpdateState.cpp:187-198 | A stream that drops before enough 128-byte chunks could carry the size ends FAILED and is not finalised, and the flash write is aborted unless a short write ended it first |
| `UpdateState.DisconnectAfter5000Bytes` | src/states/UpdateState.cpp:164-198 | A 10,000-byte image whose stream drops after 5,000 bytes fails without finalising, and the flash write is aborted |
| `UpdateState.Tick` | src/states/UpdateState.cpp:8-49 | A closed gate goes to Action with nothing changed; CHECK_VERSION goes to DOWNLOAD on a newer release, else to Action, carrying the URL and tag the check recorded; DOWNLOAD goes to COMPLETED or FAILED with the session the download left; INSTALL is idle; COMPLETED restarts when flashing finished; FAILED reports and goes to Error |
| `UpdateState.GateClosesRightAfterAPass` | src/states/UpdateState.cpp:9-12 | A tick less than the interval after a passing tick goes to Action without acting, so the DOWNLOAD just reached does not run on the next tick |
| `UpdateState.FailedDownloadLeadsToError` | src/states/UpdateState.cpp:24-44 | A failed download leads to the Error state on the next tick that passes the gate |
| `Device.ChangeState` | src/Device.cpp:3-13 | The old state's exit (skipped with no current state) comes before the new state's enter, and the new state becomes current |
| `Device.ExitBeforeEnter` | src/Device.cpp:3-13 | In a transition trace every exit precedes every enter, and it is the old state that exits |
| `Device.Tick` | src/Device.cpp:15-27 | The state's update runs first; a transition it requests replaces the current state; the heartbeat stamp moves to now iff the interval elapsed; with no state only the heartbeat can happen; a requested transition's exit and enter follow the update and precede the heartbeat, and without one only the heartbeat can follow |
| `Lifecycle.Destination` | src/states/UpdateState.cpp:8-49 | The update state sends the device to Action exactly for an Action request; otherwise to Error |
| `Lifecycle.UpdateLoop` | src/Device.cpp:15-27 | With the update state active, a loop runs one update-state tick; the device then sits in the state that tick requested (or stays in Update), the trace starts with the update, and the requested exit and enter come next |
| `Lifecycle.CheckPassKeepsUpdate` | src/states/UpdateState.cpp:15-23 | A passing check that finds a newer release keeps the device in the update state, now in DOWNLOAD |
| `Lifecycle.RequestLeavesUpdate` | src/states/UpdateState.cpp:9-12 | A tick on which the update state requests a transition leaves Update for the requested state, exit before enter, right after the update |
| `Lifecycle.DownloadPreemptedByGate` | src/states/UpdateState.cpp:9-23 | Seen from the device: after a check that finds a newer release, a loop less than the interval later exits Update and enters Action with the download never started |
| `Device.OneUpdatePerTick` | src/Device.cpp:15-18 | A tick runs the active state's update exactly once, and never with no active state |
| `Device.HeartbeatLast` | src/Device.cpp:15-27 | A heartbeat is sent iff the status interval elapsed, once, as the last event of the tick |
| `Device.HeartbeatAcrossOverflow` | src/Device.cpp:22-26 | d ms after the last heartbeat, even across clock overflow, the heartbeat fires iff d reaches the interval |
| `ErrorCodes.IsSystemError` | include/ErrorCodes.h:43-45 | A code is a system error iff it is below 10 |
| `ErrorCodes.IsConfigError` | include/ErrorCodes.h:47-49 | A code is a configuration error iff it is in 10-19 |
| `ErrorCodes.IsWifiError` | include/ErrorCodes.h:51-53 | A code is a WiFi error iff it is in 20-29 |
| `ErrorCodes.IsMqttError` | include/ErrorCodes.h:55-57 | A code is an MQTT error iff it is in 30-39 |
| `ErrorCodes.IsSensorError` | include/ErrorCodes.h:59-61 | A code is a sensor error iff it is in 40-49 |
| `ErrorCodes.IsRecoveryError` | include/ErrorCodes.h:63-65 | A code is a recovery error iff it is in 50-59 |
| `ErrorCodes.CategoryOf` | include/ErrorCodes.h:43-65 | Each predicate holds exactly for its own category, so the six are pairwise disjoint, and codes of 60 and above are in none |
| `ErrorCodes.CategoriesAreDecades` | include/ErrorCodes.h:47-65 | Config, WiFi, MQTT, sensor and recovery are the half-open decades 10-19 through 50-59 |
| `ErrorCodes.CodesInDeclaredCategory` | include/ErrorCodes.h:4-40 | Every enumerated code is in the category its comment names, and UNKNOWN_ERROR (99) in none |
| `ErrorCodes.ValuesDistinct` | include/ErrorCodes.h:4-40 | Distinct codes have distinct values |
| `Logger.Enabled` | src/Logger.cpp:15-17 | A level is printed iff it is at or above the threshold; `FilterMonotone` shows this is monotone |
| `Logger.LevelName` | src/Logger.cpp:5-13 | Names the four levels and gives UNKNOWN exactly for any other value |
| `Logger.LevelNamesDistinct` | src/Logger.cpp:5-13 | Distinct levels have distinct names |
| `Logger.Truncate` | src/Logger.cpp:33-34 | The buffer keeps a prefix of the text that leaves room for the terminator, the whole text when it fits |
| `Logger.Line` | src/Logger.cpp:31-36 | A printed line is at most 255 characters |
| `Logger.Notice` | src/Logger.cpp:21-22 | The repair notice fits the 64-byte buffer |
| `Logger.Log` | src/Logger.cpp:19-37 | An invalid threshold is reset to INFO with one INFO notice line first; afterwards the threshold is valid; the message is printed iff its level reaches the threshold, as the last line |
| `Logger.Debug` | src/Logger.cpp:39-41 | With a valid threshold, a debug message is printed iff the threshold is DEBUG |
| `Logger.Info` | src/Logger.cpp:43-45 | With a valid threshold, an info message is printed iff the threshold is DEBUG or INFO; after a repair it is always printed |
| `Logger.Warning` | src/Logger.cpp:47-49 | With a valid threshold, a warning is printed unless the threshold is ERROR |
| `Logger.Error` | src/Logger.cpp:51-53 | An error message is always printed, as the last line |
| `Logger.FilterMonotone` | src/Logger.cpp:15-17 | A higher level is printed whenever a lower one is |
| `Logger.RepairOnce` | src/Logger.cpp:20-25 | After any call the threshold is valid, so a following call prints no notice and keeps the threshold |
| `Logger.HeaderSurvives` | src/Logger.cpp:33-34 | Truncation never cuts the `[ms] LEVEL: ` header |
| `Logger.NoticeFits` | src/Logger.cpp:21-22 | Whatever the invalid 32-bit threshold, the notice is never truncated |
| `Numerals.Render` | src/MQTTManager.cpp:53 | The digit string has no leading zero, uses only digits of the base, and denotes the number |
| `U32.ElapsedAcrossOverflow` | src/Device.cpp:23 | `now - last >= interval` on uint32 measures the true delay d across overflow |

## Left out

- Configuration storage (ConfigManager): flash I/O, struct dumps and MD5.
  Each manager takes its tunables as a `Config` parameter instead.
- The HTTP client, its request headers, and ArduinoJson. The model takes
  their results as input: a `Reply` with status, body and parsed release,
  or a `Transfer` of polls.
- The `Update` flash API, `ESP.restart` and `delay`. The flash API's
  answers are inputs, and a restart is the `restart` flag.
- PubSubClient internals. Its answers are booleans, and requests are `Call`s.
- `millis()`: the time is a parameter.
- The JSON payloads and their publishing: `sendDeviceStatus`,
  `reportProgress`, `reportError`. The model keeps only the error messages
  handed to the error state and the progress figures.
- ErrorState: `setError` and `update` have empty bodies, and its header
  declares a second, conflicting error enum.
- Setup, Idle and Action states are opaque identifiers. Idle's update
  requests Setup (src/states/IdleState.cpp:7-9). Action's update runs the
  MQTT update (src/states/ActionState.cpp:7-9). Both enter `Device.Tick`
  only through its `request` parameter.
- The firmware version macro expands to the literal macro names, not
  digits. The current version is therefore a parameter
  (`Env.currentVersion`).
- Boot code and banner (`main.cpp`). The FTM, scan and soft-AP
  declarations have no bodies. Also left out: the WiFi getters (IP, SSID,
  RSSI), `Logger::setLogLevel` and `getLogLevel`, and the log lines the
  managers print.
- Version.CompareVersion returns `None` only when the comparison loop
  reaches a component `sscanf` did not fill. The source then compares an
  uninitialised integer, whose value the model does not guess. A
  comparison decided by the filled components is modelled.
- Version.Parse accepts only plain digit runs, so three `sscanf` behaviours
  are not modelled: leading whitespace and signs, and overflow beyond
  `int`.
- Version.Fields reads components the way Version.Parse does, with the
  same three omissions.
- Version.SkipFirst leaves an empty candidate as it is. The source would
  step past its terminator.
- UpdateState.DownloadAndInstall treats running out of modelled polls as
  the connection closing. The source's copy loop has no time-out: a
  server that keeps the connection open and sends nothing leaves it
  spinning on `delay(1)` for ever. That blocks the device loop, so no
  heartbeat and no state change follow, and the model cannot show it. It keeps the byte count as an unbounded number:
  a 32-bit `size_t` wrap would need an image over 4 GiB.
- WifiManager.Update reads both `millis()` calls of one update as the same
  instant.
- WifiManager.AttemptCap assumes a maximum of at most 255, where the 8-bit
  counter cannot wrap before the cap. `Update` itself models the wrap.
- UpdateState.FirmwareAssetFrom: an asset's `name` is always a string.
  An asset without a string `name` would pass a null pointer to `strcmp`,
  which is undefined behaviour, so no outcome is modelled for it.
- Strings stand for NUL-free byte strings. A Dafny `string` counts
  characters and may hold `'\0'`; C counts bytes and stops at the first
  NUL. `Logger.Truncate` therefore counts characters as bytes.
- Logger.Log uses one timestamp for the repair notice and the message.
- Lifecycle.UpdateLoop reads the heartbeat clock at the same instant as the
  update state's gate.

Three behaviours of the code a reader might not expect; the model follows the code:

- A short flash write returns without calling `Update.abort` or
  `http.end()`.
- After `connect` the counter is 1, and each elapsed poll increments it
  before the `>=` test. For a maximum between 2 and 255 the cap is
  therefore reached after `maxConnectionAttempts - 1` elapsed polls. A
  maximum of 0 or 1 takes one elapsed poll. With a maximum of 256 or more
  the 8-bit counter wraps and the cap is never reached.
- `publish` takes the topic as given, with no prefixing.

=== FILE: device.dfy ===
/** The device controller (`Device`): holds the active state, performs
    transitions (exit the old state, switch, enter the new one) and runs
    one tick (forward to the active state, then the status heartbeat).

    States are opaque identifiers and their hooks are recorded as an event
    trace. A state's `update` may itself ask for a transition, which the
    controller performs inside that update; `request` carries it. */
module Device {
  import opened U32
  import opened Wrappers

  datatype StateId = Setup | Idle | Action | Error | Update

  /** The observable effects: a hook of a state ran, or a status heartbeat
      was sent. */
  datatype Event = Exit(state: StateId) | Enter(state: StateId) | Updated(state: StateId) | Heartbeat

  datatype Controller = Controller(current: Option<StateId>, lastStatusUpdate: u32)

  /** As constructed: no state, heartbeat clock at 0. */
  const Initial: Controller := Controller(None, 0)

  datatype Step = Step(next: Controller, trace: seq<Event>)

  /** `changeState`: exit of the old state (skipped when there is none),
      then the switch, then enter of the new state. */
  function ChangeState(d: Controller, target: StateId): (r: Step)
    ensures r.next == d.(current := Some(target))
    ensures d.current.Some? ==> r.trace == [Exit(d.current.value), Enter(target)]
    ensures d.current.None? ==> r.trace == [Enter(target)]
  {
    var exits := if d.current.Some? then [Exit(d.current.value)] else [];
    Step(d.(current := Some(target)), exits + [Enter(target)])
  }

  /** `update`: the active state's update runs once (and the transition it
      requests, if any, inside it), then the heartbeat timer is checked,
      also when no state is active. */
  function Tick(d: Controller, now: u32, statusInterval: u32, request: Option<StateId>): (r: Step)
    ensures r.next.lastStatusUpdate == if Elapsed(now, d.lastStatusUpdate, statusInterval) then now else d.lastStatusUpdate
    ensures r.next.current == if d.current.Some? && request.Some? then request else d.current
    ensures d.current.None? ==> r.trace == if Elapsed(now, d.lastStatusUpdate, statusInterval) then [Heartbeat] else []
    ensures d.current.Some? ==> 0 < |r.trace| && r.trace[0] == Updated(d.current.value)
    // A requested transition happens inside the update, before the heartbeat.
    ensures d.current.Some? && request.Some? ==>
      3 <= |r.trace| && r.trace[1..3] == [Exit(d.current.value), Enter(request.value)]
    ensures d.current.Some? && request.None? ==> forall k :: 1 <= k < |r.trace| ==> r.trace[k] == Heartbeat
  {
    var updated :=
      if d.current.None? then Step(d, [])
      else
        var s := d.current.value;
        if request.Some? then
          var change := ChangeState(d, request.value);
          Step(change.next, [Updated(s)] + change.trace)
        else Step(d, [Updated(s)]);
    if Elapsed(now, d.lastStatusUpdate, statusInterval) then
      Step(updated.next.(lastStatusUpdate := now), updated.trace + [Heartbeat])
    else updated
  }

  function CountUpdates(trace: seq<Event>): nat
  {
    if |trace| == 0 then 0 else (if trace[0].Updated? then 1 else 0) + CountUpdates(trace[1..])
  }

  lemma {:induction false} CountUpdatesAppend(a: seq<Event>, b: seq<Event>)
    ensures CountUpdates(a + b) == CountUpdates(a) + CountUpdates(b)
    decreases |a|
  {
    if |a| == 0 {
      assert a + b == b;
    } else {
      assert (a + b)[0] == a[0];
      assert (a + b)[1..] == a[1..] + b;
      CountUpdatesAppend(a[1..], b);
    }
  }

  /** Within a transition the old state's exit completes before the new
      state's enter begins, and the old state is never entered. */
  lemma ExitBeforeEnter(d: Controller, target: StateId, i: nat, j: nat)
    requires var t := ChangeState(d, target).trace; i < |t| && j < |t| && t[i].Exit? && t[j].Enter?
    ensures i < j
    ensures ChangeState(d, target).trace[i].state == d.current.value
  {
  }

  /** One tick runs the active state's update exactly once, and none
      when there is no active state. */
  lemma {:induction false} OneUpdatePerTick(d: Controller, now: u32, statusInterval: u32, request: Option<StateId>)
    ensures CountUpdates(Tick(d, now, statusInterval, request).trace) == if d.current.Some? then 1 else 0
  {
    var t := Tick(d, now, statusInterval, request).trace;
    var beat: seq<Event> := if Elapsed(now, d.lastStatusUpdate, statusInterval) then [Heartbeat] else [];
    assert CountUpdates(beat) == 0 by {
      if |beat| > 0 {
        assert beat[1..] == [];
      }
    }
    if d.current.None? {
      assert t == beat;
    } else {
      var s := d.current.value;
      var change: seq<Event> := if request.Some? then ChangeState(d, request.value).trace else [];
      assert CountUpdates(change) == 0 by {
        if request.Some? {
          if d.current.Some? {
            assert change == [Exit(s), Enter(request.value)];
            assert change[1..] == [Enter(request.value)];
            assert change[1..][1..] == [];
          }
        }
      }
      assert t == [Updated(s)] + change + beat;
      CountUpdatesAppend([Updated(s)] + change, beat);
      CountUpdatesAppend([Updated(s)], change);
      assert ([Updated(s)])[1..] == [];
    }
  }

  /** The heartbeat is sent iff the status interval has elapsed, and then
      as the last thing of the tick, after the state's update. */
  lemma HeartbeatLast(d: Controller, now: u32, statusInterval: u32, request: Option<StateId>)
    ensures var t := Tick(d, now, statusInterval, request).trace;
            (Heartbeat in t <==> Elapsed(now, d.lastStatusUpdate, statusInterval))
            && (Heartbeat in t ==> t[|t| - 1] == Heartbeat && forall k :: 0 <= k < |t| - 1 ==> t[k] != Heartbeat)
  {
  }

  /** The heartbeat timer is right across clock overflow: `d` ms after the
      last heartbeat it fires iff `d` reaches the interval. */
  lemma HeartbeatAcrossOverflow(c: Controller, d: u32, statusInterval: u32, request: Option<StateId>)
    ensures var t := Tick(c, Add(c.lastStatusUpdate, d), statusInterval, request).trace;
            Heartbeat in t <==> d >= statusInterval
  {
    ElapsedAcrossOverflow(c.lastStatusUpdate, d, statusInterval);
    HeartbeatLast(c, Add(c.lastStatusUpdate, d), statusInterval, request);
  }
}

=== FILE: error_codes.dfy ===
/** The fault taxonomy (`ErrorCode` and `ErrorUtils`): numeric codes
    grouped by decade, and one range predicate per category over the
    code's integer value. */
module ErrorCodes {
  import opened Wrappers

  datatype ErrorCode =
    | BootFailed | MemoryLow | FilesystemError
    | ConfigInvalid | ConfigLoadFailed | ConfigSaveFailed
    | WifiInitFailed | WifiConnectionFailed | WifiConnectionLost | WifiWrongPassword | WifiNoSsid
    | MqttInitFailed | MqttConnectionFailed | MqttLostConnection | MqttSubscriptionFailed | MqttPublishFailed
    | SensorInitFailed | SensorReadFailed | SensorCalibrationFailed
    | RecoveryFailed | UpdateFailed
    | UnknownError

  /** `static_cast<int>(code)`. */
  function Value(e: ErrorCode): int
  {
    match e
    case BootFailed => 1
    case MemoryLow => 2
    case FilesystemError => 3
    case ConfigInvalid => 10
    case ConfigLoadFailed => 11
    case ConfigSaveFailed => 12
    case WifiInitFailed => 20
    case WifiConnectionFailed => 21
    case WifiConnectionLost => 22
    case WifiWrongPassword => 23
    case WifiNoSsid => 24
    case MqttInitFailed => 30
    case MqttConnectionFailed => 31
    case MqttLostConnection => 32
    case MqttSubscriptionFailed => 33
    case MqttPublishFailed => 34
    case SensorInitFailed => 40
    case SensorReadFailed => 41
    case SensorCalibrationFailed => 42
    case RecoveryFailed => 50
    case UpdateFailed => 51
    case UnknownError => 99
  }

  predicate IsSystemError(code: int) { code < 10 }
  predicate IsConfigError(code: int) { 10 <= code < 20 }
  predicate IsWifiError(code: int) { 20 <= code < 30 }
  predicate IsMqttError(code: int) { 30 <= code < 40 }
  predicate IsSensorError(code: int) { 40 <= code < 50 }
  predicate IsRecoveryError(code: int) { 50 <= code < 60 }

  datatype Category = System | Configuration | Wifi | Mqtt | Sensor | Recovery

  /** The category the predicates put a code in, if any: each code is in
      at most one category, and codes of 60 and above are in none. */
  function CategoryOf(code: int): (r: Option<Category>)
    ensures r == Some(System) <==> IsSystemError(code)
    ensures r == Some(Configuration) <==> IsConfigError(code)
    ensures r == Some(Wifi) <==> IsWifiError(code)
    ensures r == Some(Mqtt) <==> IsMqttError(code)
    ensures r == Some(Sensor) <==> IsSensorError(code)
    ensures r == Some(Recovery) <==> IsRecoveryError(code)
    ensures r.None? <==> 60 <= code
  {
    if code < 10 then Some(System)
    else if code < 20 then Some(Configuration)
    else if code < 30 then Some(Wifi)
    else if code < 40 then Some(Mqtt)
    else if code < 50 then Some(Sensor)
    else if code < 60 then Some(Recovery)
    else None
  }

  /** The category named by the comment above each group of codes. */
  function DeclaredCategory(e: ErrorCode): Option<Category>
  {
    match e
    case BootFailed | MemoryLow | FilesystemError => Some(System)
    case ConfigInvalid | ConfigLoadFailed | ConfigSaveFailed => Some(Configuration)
    case WifiInitFailed | WifiConnectionFailed | WifiConnectionLost | WifiWrongPassword | WifiNoSsid => Some(Wifi)
    case MqttInitFailed | MqttConnectionFailed | MqttLostConnection | MqttSubscriptionFailed | MqttPublishFailed => Some(Mqtt)
    case SensorInitFailed | SensorReadFailed | SensorCalibrationFailed => Some(Sensor)
    case RecoveryFailed | UpdateFailed => Some(Recovery)
    case UnknownError => None
  }

  /** Every enumerated code satisfies the predicate of the group it is
      declared in, and `UNKNOWN_ERROR` satisfies none. */
  lemma CodesInDeclaredCategory(e: ErrorCode)
    ensures CategoryOf(Value(e)) == DeclaredCategory(e)
    ensures e == UnknownError ==>
      !IsSystemError(Value(e)) && !IsConfigError(Value(e)) && !IsWifiError(Value(e))
      && !IsMqttError(Value(e)) && !IsSensorError(Value(e)) && !IsRecoveryError(Value(e))
  {
  }

  /** The five numbered categories are the half-open decades
      [10k, 10k + 10) for k = 1..5; system is everything below 10. */
  lemma CategoriesAreDecades(code: int)
    ensures IsConfigError(code) <==> 0 <= code && code / 10 == 1
    ensures IsWifiError(code) <==> 0 <= code && code / 10 == 2
    ensures IsMqttError(code) <==> 0 <= code && code / 10 == 3
    ensures IsSensorError(code) <==> 0 <= code && code / 10 == 4
    ensures IsRecoveryError(code) <==> 0 <= code && code / 10 == 5
  {
  }

  /** Distinct enumerators have distinct values. */
  lemma ValuesDistinct(e: ErrorCode, f: ErrorCode)
    ensures Value(e) == Value(f) ==> e == f
  {
  }
}

=== FILE: lifecycle.dfy ===
/** The device loop while the update state is active: the controller
    forwards the tick to the update state, performs the transition that
    state asks for inside its update, and then runs the heartbeat. This
    ties the update controller's phase machine to the device's event
    trace. */
module Lifecycle {
  import opened U32
  import opened Wrappers
  import Device
  import UpdateState

  datatype Node = Node(controller: Device.Controller, session: UpdateState.Session)

  /** The device state an update-state request names. */
  function Destination(t: UpdateState.Target): (s: Device.StateId)
    ensures s == Device.Action <==> t == UpdateState.ToAction
  {
    match t
    case ToAction => Device.Action
    case ToError => Device.Error
  }

  /** One `loop()` with the update state active. */
  function UpdateLoop(n: Node, env: UpdateState.Env, statusInterval: u32): (r: (Node, seq<Device.Event>))
    requires n.controller.current == Some(Device.Update)
    ensures var u := UpdateState.Tick(n.session, env);
            && r.0.session == u.session
            && r.0.controller.current == (if u.next.Some? then Some(Destination(u.next.value)) else Some(Device.Update))
            && 0 < |r.1| && r.1[0] == Device.Updated(Device.Update)
            && (u.next.Some? ==> 3 <= |r.1| && r.1[1..3] == [Device.Exit(Device.Update), Device.Enter(Destination(u.next.value))])
            && (u.next.None? ==> forall k :: 1 <= k < |r.1| ==> r.1[k] == Device.Heartbeat)
  {
    var u := UpdateState.Tick(n.session, env);
    var request := if u.next.Some? then Some(Destination(u.next.value)) else None;
    var d := Device.Tick(n.controller, env.now, statusInterval, request);
    (Node(d.next, u.session), d.trace)
  }

  /** A check that finds a newer release keeps the update state active
      and moves it to DOWNLOAD. */
  lemma CheckPassKeepsUpdate(n: Node, env: UpdateState.Env, statusInterval: u32)
    requires n.controller.current == Some(Device.Update)
    requires n.session.phase == UpdateState.CheckVersion
    requires UpdateState.CheckUpdateConditions(n.session, env.now, env.interval).pass
    requires UpdateState.CheckLatestRelease(n.session, env.currentVersion, env.reply).ok
    ensures var after := UpdateLoop(n, env, statusInterval).0;
            && after.controller.current == Some(Device.Update)
            && after.session.phase == UpdateState.Download
            && after.session == UpdateState.Tick(n.session, env).session
  {
    var u := UpdateState.Tick(n.session, env);
    assert u.next == None && u.session.phase == UpdateState.Download;
  }

  /** A tick on which the update state asks for a transition leaves it
      for the requested state, exit before enter. */
  lemma RequestLeavesUpdate(n: Node, env: UpdateState.Env, statusInterval: u32, t: UpdateState.Target)
    requires n.controller.current == Some(Device.Update)
    requires UpdateState.Tick(n.session, env).next == Some(t)
    ensures var (after, trace) := UpdateLoop(n, env, statusInterval);
            && after.controller.current == Some(Destination(t))
            && after.session == UpdateState.Tick(n.session, env).session
            && 3 <= |trace| && trace[..3] == [Device.Updated(Device.Update), Device.Exit(Device.Update), Device.Enter(Destination(t))]
  {
    var trace := UpdateLoop(n, env, statusInterval).1;
    assert trace[..3] == [trace[0]] + trace[1..3];
  }

  /** The re-evaluated gate seen from the device: a check that finds a
      newer release moves the update state to DOWNLOAD, but a tick less
      than the check interval later leaves the update state for Action
      (exit before enter) before any byte is downloaded. */
  lemma DownloadPreemptedByGate(n: Node, first: UpdateState.Env, second: UpdateState.Env, statusInterval: u32)
    requires n.controller.current == Some(Device.Update)
    requires n.session.phase == UpdateState.CheckVersion
    requires UpdateState.CheckUpdateConditions(n.session, first.now, first.interval).pass
    requires UpdateState.CheckLatestRelease(n.session, first.currentVersion, first.reply).ok
    requires first.now != 0
    requires !Elapsed(second.now, first.now, second.interval)
    ensures var after1 := UpdateLoop(n, first, statusInterval).0;
            var (after2, trace2) := UpdateLoop(after1, second, statusInterval);
            && after2.controller.current == Some(Device.Action)
            && after2.session.phase == UpdateState.Download
            && 3 <= |trace2| && trace2[..3] == [Device.Updated(Device.Update), Device.Exit(Device.Update), Device.Enter(Device.Action)]
  {
    CheckPassKeepsUpdate(n, first, statusInterval);
    var after1 := UpdateLoop(n, first, statusInterval).0;
    UpdateState.GateClosesRightAfterAPass(n.session, first, second);
    RequestLeavesUpdate(after1, second, statusInterval, UpdateState.ToAction);
  }
}

=== FILE: logger.dfy ===
/** The serial logger (`Logger`): a threshold filter over four levels,
    self-repair of an out-of-range threshold, and the formatted line
    `[ms] LEVEL: source: message` cut to the 256-byte buffer. */
module Logger {
  import opened U32
  import Numerals

  /** The underlying type of the level enum; a threshold read from the
      configuration is cast to it and can be any value of this range. */
  type i32 = x: int | -0x8000_0000 <= x < 0x8000_0000

  const DebugLevel: i32 := 0
  const InfoLevel: i32 := 1
  const WarningLevel: i32 := 2
  const ErrorLevel: i32 := 3
  /** The enum's delimiter value, i.e. the number of real levels. */
  const LevelCount: i32 := 4

  predicate ValidLevel(level: i32)
  {
    0 <= level <= LevelCount - 1
  }

  /** `getLogLevelString`: the name of a level, "UNKNOWN" for anything
      that is not one of the four. */
  function LevelName(level: i32): (r: string)
    ensures r != "UNKNOWN" <==> ValidLevel(level)
    ensures 0 < |r| <= 7
  {
    if level == DebugLevel then "DEBUG"
    else if level == InfoLevel then "INFO"
    else if level == WarningLevel then "WARNING"
    else if level == ErrorLevel then "ERROR"
    else "UNKNOWN"
  }

  /** Distinct levels have distinct names. */
  lemma LevelNamesDistinct(a: i32, b: i32)
    requires ValidLevel(a) && ValidLevel(b)
    ensures LevelName(a) == LevelName(b) <==> a == b
  {
  }

  datatype LogState = LogState(threshold: i32)

  /** `isLogLevelEnabled`. */
  predicate Enabled(lg: LogState, level: i32)
  {
    level >= lg.threshold
  }

  /** `snprintf` into a buffer of `capacity` bytes: the text, cut so that
      it and its terminator fit. */
  function Truncate(s: string, capacity: nat): (r: string)
    requires 0 < capacity
    ensures |r| < capacity
    ensures r <= s
    ensures |s| < capacity ==> r == s
    ensures capacity <= |s| ==> |r| == capacity - 1
  {
    if |s| < capacity then s else s[..capacity - 1]
  }

  const LineCapacity := 256
  const NoticeCapacity := 64

  /** The leading part of a line: timestamp and level name. */
  function Header(ms: u32, level: i32): string
  {
    "[" + Numerals.Decimal(ms) + "] " + LevelName(level) + ": "
  }

  /** One output line, `"[%lu] %s: %s: %s"` in a 256-byte buffer. */
  function Line(ms: u32, level: i32, source: string, message: string): (r: string)
    ensures |r| <= LineCapacity - 1
  {
    Truncate(Header(ms, level) + source + ": " + message, LineCapacity)
  }

  /** The notice text for a repaired threshold, in a 64-byte buffer. */
  function Notice(threshold: i32): (r: string)
    ensures |r| <= NoticeCapacity - 1
  {
    Truncate("Invalid log level: '" + Numerals.SignedDecimal(threshold) + "' - changing to default: INFO", NoticeCapacity)
  }

  datatype Logged = Logged(next: LogState, lines: seq<string>)

  /** `log`: an invalid threshold is first reset to INFO and the reset is
      reported through `info` (a nested call of this function); then the
      line is printed iff its level reaches the threshold. */
  function Log(lg: LogState, level: i32, source: string, message: string, ms: u32): (r: Logged)
    ensures ValidLevel(r.next.threshold)
    ensures r.next.threshold == if ValidLevel(lg.threshold) then lg.threshold else InfoLevel
    ensures |r.lines| == (if ValidLevel(lg.threshold) then 0 else 1) + (if Enabled(r.next, level) then 1 else 0)
    ensures !ValidLevel(lg.threshold) ==> r.lines[0] == Line(ms, InfoLevel, "Logger", Notice(lg.threshold))
    ensures Enabled(r.next, level) ==> r.lines[|r.lines| - 1] == Line(ms, level, source, message)
    ensures forall i :: 0 <= i < |r.lines| ==> |r.lines[i]| < LineCapacity
    decreases if ValidLevel(lg.threshold) then 0 else 1
  {
    var repaired :=
      if ValidLevel(lg.threshold) then Logged(lg, [])
      else Log(LogState(InfoLevel), InfoLevel, "Logger", Notice(lg.threshold), ms);
    if Enabled(repaired.next, level) then
      Logged(repaired.next, repaired.lines + [Line(ms, level, source, message)])
    else repaired
  }

  /** `debug`: printed only when the threshold is DEBUG. */
  function Debug(lg: LogState, source: string, message: string, ms: u32): (r: Logged)
    ensures ValidLevel(lg.threshold) ==> (|r.lines| == 1 <==> lg.threshold == DebugLevel)
    ensures ValidLevel(lg.threshold) && lg.threshold == DebugLevel ==> r.lines == [Line(ms, DebugLevel, source, message)]
    ensures !ValidLevel(lg.threshold) ==> |r.lines| == 1 && r.next.threshold == InfoLevel
  {
    Log(lg, DebugLevel, source, message, ms)
  }

  /** `info`: printed at thresholds DEBUG and INFO, and always after a
      repair. */
  function Info(lg: LogState, source: string, message: string, ms: u32): (r: Logged)
    ensures ValidLevel(lg.threshold) ==> (|r.lines| == 1 <==> lg.threshold <= InfoLevel)
    ensures !ValidLevel(lg.threshold) ==> |r.lines| == 2
    ensures 0 < |r.lines| ==> r.lines[|r.lines| - 1] == Line(ms, InfoLevel, source, message)
  {
    Log(lg, InfoLevel, source, message, ms)
  }

  /** `warning`: printed unless the threshold is ERROR. */
  function Warning(lg: LogState, source: string, message: string, ms: u32): (r: Logged)
    ensures ValidLevel(lg.threshold) ==> (|r.lines| == 1 <==> lg.threshold != ErrorLevel)
    ensures !ValidLevel(lg.threshold) ==> |r.lines| == 2
    ensures 0 < |r.lines| ==> r.lines[|r.lines| - 1] == Line(ms, WarningLevel, source, message)
  {
    Log(lg, WarningLevel, source, message, ms)
  }

  /** `error`: always printed. */
  function Error(lg: LogState, source: string, message: string, ms: u32): (r: Logged)
    ensures |r.lines| == if ValidLevel(lg.threshold) then 1 else 2
    ensures r.lines[|r.lines| - 1] == Line(ms, ErrorLevel, source, message)
  {
    Log(lg, ErrorLevel, source, message, ms)
  }

  /** The filter is monotone: a level that is printed makes every higher
      level printed too. */
  lemma FilterMonotone(lg: LogState, low: i32, high: i32, source: string, message: string, ms: u32)
    requires low <= high
    ensures |Log(lg, low, source, message, ms).lines| <= |Log(lg, high, source, message, ms).lines|
  {
  }

  /** The repair happens at most once: after any call the threshold is
      valid, so the next call prints no notice. */
  lemma RepairOnce(lg: LogState, level: i32, source: string, message: string, ms: u32,
                   level2: i32, source2: string, message2: string, ms2: u32)
    ensures var first := Log(lg, level, source, message, ms);
            var second := Log(first.next, level2, source2, message2, ms2);
            second.next == first.next
            && |second.lines| == (if level2 >= first.next.threshold then 1 else 0)
  {
  }

  /** The truncation never reaches into the header: every line starts
      with the timestamp in decimal and the level name. */
  lemma HeaderSurvives(ms: u32, level: i32, source: string, message: string)
    ensures Header(ms, level) <= Line(ms, level, source, message)
  {
    Numerals.RenderLength(ms, 10, 10);
  }

  /** The repair notice always fits its 64-byte buffer, whatever the
      invalid threshold was. */
  lemma {:induction false} NoticeFits(threshold: i32)
    ensures Notice(threshold) == "Invalid log level: '" + Numerals.SignedDecimal(threshold) + "' - changing to default: INFO"
  {
    if threshold < 0 {
      var magnitude: nat := -(threshold as int);
      Numerals.RenderLength(magnitude, 10, 10);
    } else {
      Numerals.RenderLength(threshold, 10, 10);
    }
  }
}

=== FILE: mqtt_manager.dfy ===
/** The messaging manager (`MQTTManager`): broker session guards, the
    subscription registry, inbound dispatch and the retry timer.

    The PubSubClient transport is abstracted: what the manager asks of it
    is recorded as a list of `Call`s, and its answers (does the broker
    accept the connection, the subscribe, the unsubscribe, the publish)
    are parameters of each operation. `connected` mirrors
    `client.connected()`; `Drop` models the transport losing the session
    on its own. Callbacks are opaque handles. */
module MqttManager {
  import opened U32
  import opened Wrappers
  import Numerals
  import TopicMatch

  /** Handle of the callback closure stored with a subscription. */
  type CallbackId = nat

  datatype Subscription = Subscription(topic: string, callback: CallbackId)

  /** The tunables the manager reads from the runtime configuration. */
  datatype Config = Config(
    broker: string,
    port: nat,
    user: string,
    password: string,
    retryInterval: u32)

  /** The device identity the client id is derived from. */
  datatype Identity = Identity(name: string, chipId: nat)

  /** Requests the manager issues to the transport. */
  datatype Call =
    | SetServer(broker: string, port: nat)
    | Open(clientId: string, credentials: Option<(string, string)>)
    | SubscribeTo(topic: string)
    | UnsubscribeFrom(topic: string)
    | PublishOn(topic: string, payload: string, retained: bool)
    | Close
    | Pump

  datatype Manager = Manager(
    initialized: bool,
    connected: bool,
    clientId: string,
    subscriptions: seq<Subscription>,
    lastAttempt: u32)

  /** The singleton as constructed: not initialised, not connected, and
      the members the constructor leaves alone zeroed (static storage). */
  const Initial: Manager := Manager(false, false, "", [], 0)

  /** Outcome of one operation: new state, returned flag, transport calls. */
  datatype Step = Step(next: Manager, ok: bool, calls: seq<Call>)

  predicate Registered(subs: seq<Subscription>, topic: string)
  {
    exists i :: 0 <= i < |subs| && subs[i].topic == topic
  }

  /** Registry invariant: no topic filter is registered twice. */
  predicate UniqueTopics(subs: seq<Subscription>)
  {
    forall i, j :: 0 <= i < j < |subs| ==> subs[i].topic != subs[j].topic
  }

  /** `name-<chip id as uint32 in lower-case hex>`. */
  function ClientId(id: Identity): (r: string)
    ensures |id.name| + 1 < |r|
    ensures r[..|id.name| + 1] == id.name + "-"
    ensures Numerals.AllDigits(r[|id.name| + 1..], 16)
    ensures Numerals.Value(r[|id.name| + 1..], 16) == id.chipId % Modulus
    ensures |r| > |id.name| + 2 ==> r[|id.name| + 1] != '0'
  {
    var hex := Numerals.Hex(id.chipId % Modulus);
    var r := id.name + "-" + hex;
    assert r[|id.name| + 1..] == hex;
    r
  }

  /** `begin`: refuses an empty broker or port 0; once initialised, it
      succeeds again without doing anything. */
  function Begin(m: Manager, cfg: Config, id: Identity): (r: Step)
    ensures m.initialized ==> r == Step(m, true, [])
    ensures !m.initialized ==> (r.ok <==> |cfg.broker| > 0 && cfg.port != 0)
    ensures !r.ok ==> r.next == m && r.calls == []
    ensures !m.initialized && r.ok ==>
      r.next == m.(initialized := true, clientId := ClientId(id))
      && r.calls == [SetServer(cfg.broker, cfg.port)]
  {
    if m.initialized then Step(m, true, [])
    else if |cfg.broker| == 0 then Step(m, false, [])
    else if cfg.port == 0 then Step(m, false, [])
    else Step(m.(initialized := true, clientId := ClientId(id)), true, [SetServer(cfg.broker, cfg.port)])
  }

  /** The transport calls that replay the registry, in registration order. */
  function Resubscribe(subs: seq<Subscription>): (calls: seq<Call>)
    ensures |calls| == |subs|
    ensures forall i :: 0 <= i < |subs| ==> calls[i] == SubscribeTo(subs[i].topic)
  {
    if |subs| == 0 then [] else [SubscribeTo(subs[0].topic)] + Resubscribe(subs[1..])
  }

  /** `connect`: needs a successful `begin`; already connected is a
      success with no effect; otherwise one connection attempt (with the
      credentials when a user is configured), and on acceptance every
      registered topic is subscribed again, in order. */
  function Connect(m: Manager, cfg: Config, accepted: bool): (r: Step)
    ensures !m.initialized ==> r == Step(m, false, [])
    ensures m.initialized && m.connected ==> r == Step(m, true, [])
    // Only the connection flag can change; the identity and the registry
    // are reused as they are.
    ensures r.next == m.(connected := r.next.connected)
    ensures r.next.subscriptions == m.subscriptions
    ensures r.next.lastAttempt == m.lastAttempt
    ensures m.initialized && !m.connected ==>
      && r.ok == accepted
      && r.next.connected == accepted
      && |r.calls| == 1 + (if accepted then |m.subscriptions| else 0)
      && r.calls[0] == Open(m.clientId, if |cfg.user| > 0 then Some((cfg.user, cfg.password)) else None)
      && (accepted ==> forall i :: 0 <= i < |m.subscriptions| ==> r.calls[i + 1] == SubscribeTo(m.subscriptions[i].topic))
  {
    if !m.initialized then Step(m, false, [])
    else if m.connected then Step(m, true, [])
    else
      var open := Open(m.clientId, if |cfg.user| > 0 then Some((cfg.user, cfg.password)) else None);
      if accepted then Step(m.(connected := true), true, [open] + Resubscribe(m.subscriptions))
      else Step(m, false, [open])
  }

  /** `disconnect`: closes the session only when one is open. */
  function Disconnect(m: Manager): (r: Step)
    ensures !r.next.connected
    ensures r.next.subscriptions == m.subscriptions
    // Nothing but the connection flag changes, so a later `connect` needs
    // no new `begin`.
    ensures r.next == m.(connected := false)
    ensures r.calls == if m.connected then [Close] else []
  {
    if m.connected then Step(m.(connected := false), true, [Close]) else Step(m, true, [])
  }

  /** The transport noticing on its own that the broker session is gone. */
  function Drop(m: Manager): (r: Manager)
    ensures !r.connected && r.subscriptions == m.subscriptions && r.initialized == m.initialized
  {
    m.(connected := false)
  }

  /** `subscribe`: fails when not connected and when the topic is already
      registered (registry untouched); otherwise asks the transport and
      appends exactly one entry if it accepts. */
  function Subscribe(m: Manager, topic: string, callback: CallbackId, accepted: bool): (r: Step)
    ensures !m.connected ==> r == Step(m, false, [])
    ensures m.connected && Registered(m.subscriptions, topic) ==> r == Step(m, false, [])
    ensures m.connected && !Registered(m.subscriptions, topic) ==>
      && r.calls == [SubscribeTo(topic)]
      && r.ok == accepted
      && r.next.subscriptions == (if accepted then m.subscriptions + [Subscription(topic, callback)] else m.subscriptions)
    ensures r.next == m.(subscriptions := r.next.subscriptions)
    ensures UniqueTopics(m.subscriptions) ==> UniqueTopics(r.next.subscriptions)
  {
    if !m.connected then Step(m, false, [])
    else if Registered(m.subscriptions, topic) then Step(m, false, [])
    else if accepted then Step(m.(subscriptions := m.subscriptions + [Subscription(topic, callback)]), true, [SubscribeTo(topic)])
    else Step(m, false, [SubscribeTo(topic)])
  }

  /** `sub` is `subs` with some entries left out, the rest in their order. */
  predicate Subsequence(sub: seq<Subscription>, subs: seq<Subscription>)
    decreases |subs|
  {
    if |sub| == 0 then true
    else if |subs| == 0 then false
    else if sub[0] == subs[0] then Subsequence(sub[1..], subs[1..])
    else Subsequence(sub, subs[1..])
  }

  function CountTopic(subs: seq<Subscription>, topic: string): nat
  {
    if |subs| == 0 then 0 else (if subs[0].topic == topic then 1 else 0) + CountTopic(subs[1..], topic)
  }

  /** The `remove_if` of `unsubscribe`: every entry with an equal topic goes,
      the others stay in their relative order. */
  function RemoveTopic(subs: seq<Subscription>, topic: string): (r: seq<Subscription>)
    ensures forall s :: s in r <==> s in subs && s.topic != topic
    ensures Subsequence(r, subs)
    ensures |r| == |subs| - CountTopic(subs, topic)
  {
    if |subs| == 0 then []
    else if subs[0].topic == topic then RemoveTopic(subs[1..], topic)
    else
      var tail := RemoveTopic(subs[1..], topic);
      assert ([subs[0]] + tail)[1..] == tail;
      [subs[0]] + tail
  }

  /** A subsequence of a registry with unique topics has unique topics. */
  lemma {:induction false} SubsequenceKeepsUnique(sub: seq<Subscription>, subs: seq<Subscription>)
    requires Subsequence(sub, subs)
    requires UniqueTopics(subs)
    ensures UniqueTopics(sub)
    decreases |subs|
  {
    if |sub| == 0 {
    } else {
      assert UniqueTopics(subs[1..]) by {
        forall i, j | 0 <= i < j < |subs[1..]| ensures subs[1..][i].topic != subs[1..][j].topic {
          assert subs[1..][i] == subs[i + 1] && subs[1..][j] == subs[j + 1];
        }
      }
      if sub[0] == subs[0] {
        SubsequenceKeepsUnique(sub[1..], subs[1..]);
        forall j | 0 < j < |sub| ensures sub[0].topic != sub[j].topic {
          assert sub[j] == sub[1..][j - 1];
          SubsequenceMembers(sub[1..], subs[1..], j - 1);
          var k :| 0 <= k < |subs[1..]| && subs[1..][k] == sub[j];
          assert subs[k + 1] == sub[j];
        }
      } else {
        SubsequenceKeepsUnique(sub, subs[1..]);
      }
    }
  }

  /** Every element of a subsequence occurs in the sequence. */
  lemma {:induction false} SubsequenceMembers(sub: seq<Subscription>, subs: seq<Subscription>, i: nat)
    requires Subsequence(sub, subs)
    requires i < |sub|
    ensures exists k :: 0 <= k < |subs| && subs[k] == sub[i]
    decreases |subs|
  {
    if sub[0] == subs[0] {
      if i == 0 {
        assert subs[0] == sub[0];
      } else {
        SubsequenceMembers(sub[1..], subs[1..], i - 1);
        var k :| 0 <= k < |subs[1..]| && subs[1..][k] == sub[1..][i - 1];
        assert subs[k + 1] == sub[i];
      }
    } else {
      SubsequenceMembers(sub, subs[1..], i);
      var k :| 0 <= k < |subs[1..]| && subs[1..][k] == sub[i];
      assert subs[k + 1] == sub[i];
    }
  }

  /** `unsubscribe`: fails when not connected; on the transport's
      acceptance removes every entry with that topic, keeping the order of
      the others; otherwise leaves the registry alone. */
  function Unsubscribe(m: Manager, topic: string, accepted: bool): (r: Step)
    ensures !m.connected ==> r == Step(m, false, [])
    ensures m.connected ==> r.calls == [UnsubscribeFrom(topic)] && r.ok == accepted
    ensures !r.ok ==> r.next == m
    ensures r.ok ==> !Registered(r.next.subscriptions, topic)
    ensures r.ok ==> forall s :: s in r.next.subscriptions <==> s in m.subscriptions && s.topic != topic
    // Exactly the entries with the topic go, duplicates of others included.
    ensures r.ok ==> r.next.subscriptions == RemoveTopic(m.subscriptions, topic)
    ensures Subsequence(r.next.subscriptions, m.subscriptions)
    ensures r.next == m.(subscriptions := r.next.subscriptions)
    ensures UniqueTopics(m.subscriptions) ==> UniqueTopics(r.next.subscriptions)
  {
    if !m.connected then
      SubsequenceReflexive(m.subscriptions);
      Step(m, false, [])
    else if accepted then
      var kept := RemoveTopic(m.subscriptions, topic);
      assert forall i :: 0 <= i < |kept| ==> kept[i] in kept;
      RemovalKeepsUnique(m.subscriptions, topic);
      Step(m.(subscriptions := kept), true, [UnsubscribeFrom(topic)])
    else
      SubsequenceReflexive(m.subscriptions);
      Step(m, false, [UnsubscribeFrom(topic)])
  }

  lemma RemovalKeepsUnique(subs: seq<Subscription>, topic: string)
    ensures UniqueTopics(subs) ==> UniqueTopics(RemoveTopic(subs, topic))
  {
    if UniqueTopics(subs) {
      SubsequenceKeepsUnique(RemoveTopic(subs, topic), subs);
    }
  }

  lemma {:induction false} SubsequenceReflexive(subs: seq<Subscription>)
    ensures Subsequence(subs, subs)
    decreases |subs|
  {
    if |subs| > 0 {
      SubsequenceReflexive(subs[1..]);
    }
  }

  /** `publish`: fails when not connected, otherwise reports the
      transport's answer. The registry is never touched. */
  function Publish(m: Manager, topic: string, payload: string, retained: bool, accepted: bool): (r: Step)
    ensures r.next == m
    ensures r.ok <==> m.connected && accepted
    ensures r.calls == if m.connected then [PublishOn(topic, payload, retained)] else []
  {
    if !m.connected then Step(m, false, [])
    else Step(m, accepted, [PublishOn(topic, payload, retained)])
  }

  /** `update`, once per loop: nothing before `begin`; while disconnected,
      a connection attempt at most once per `retryInterval` (measured with
      wrapping subtraction), stamping the attempt time and clearing it to
      0 on success; while connected, only the transport's message pump. */
  function Update(m: Manager, cfg: Config, now: u32, accepted: bool): (r: Step)
    ensures !m.initialized ==> r == Step(m, true, [])
    ensures m.initialized && m.connected ==> r == Step(m, true, [Pump])
    ensures m.initialized && !m.connected && !Elapsed(now, m.lastAttempt, cfg.retryInterval) ==>
      r == Step(m, true, [])
    ensures m.initialized && !m.connected && Elapsed(now, m.lastAttempt, cfg.retryInterval) ==>
      && r.ok == accepted
      && r.next.connected == accepted
      && r.next.lastAttempt == (if accepted then 0 else now)
      && 0 < |r.calls| && r.calls[0].Open?
      // The attempt is a full `connect`, replay of the registry included.
      && r.calls == Connect(m, cfg, accepted).calls
    ensures r.next.subscriptions == m.subscriptions
    ensures r.next.initialized == m.initialized
    // Only the connection flag and the retry stamp can change.
    ensures r.next == m.(connected := r.next.connected, lastAttempt := r.next.lastAttempt)
  {
    if !m.initialized then Step(m, true, [])
    else if m.connected then Step(m, true, [Pump])
    else if Elapsed(now, m.lastAttempt, cfg.retryInterval) then
      var attempt := Connect(m.(lastAttempt := now), cfg, accepted);
      var next := if attempt.ok then attempt.next.(lastAttempt := 0) else attempt.next;
      Step(next, attempt.ok, attempt.calls)
    else Step(m, true, [])
  }

  /** `handleCallback`: the registry is scanned in registration order and
      the callback of every subscription whose filter matches the inbound
      topic is invoked. `fired` lists the positions of the invoked entries
      and `callbacks` the handles invoked, in invocation order. */
  method HandleCallback(subs: seq<Subscription>, topic: string) returns (fired: seq<nat>, callbacks: seq<CallbackId>)
    ensures |callbacks| == |fired|
    ensures forall k :: 0 <= k < |fired| ==>
      fired[k] < |subs| && TopicMatch.Matches(subs[fired[k]].topic, topic) && callbacks[k] == subs[fired[k]].callback
    ensures forall k, l :: 0 <= k < l < |fired| ==> fired[k] < fired[l]
    ensures forall i :: 0 <= i < |subs| && TopicMatch.Matches(subs[i].topic, topic) ==> i in fired
  {
    fired, callbacks := [], [];
    var i := 0;
    while i < |subs|
      invariant 0 <= i <= |subs|
      invariant |callbacks| == |fired|
      invariant forall k :: 0 <= k < |fired| ==>
        fired[k] < i && TopicMatch.Matches(subs[fired[k]].topic, topic) && callbacks[k] == subs[fired[k]].callback
      invariant forall k, l :: 0 <= k < l < |fired| ==> fired[k] < fired[l]
      invariant forall j :: 0 <= j < i && TopicMatch.Matches(subs[j].topic, topic) ==> j in fired
    {
      var hit := TopicMatch.MatchTopic(subs[i].topic, topic);
      if hit {
        fired := fired + [i];
        callbacks := callbacks + [subs[i].callback];
      }
      i := i + 1;
    }
  }

  /** Every operation a caller can perform on the manager. */
  datatype Op =
    | BeginOp(cfg: Config, id: Identity)
    | ConnectOp(cfg: Config, accepted: bool)
    | DisconnectOp
    | DropOp
    | SubscribeOp(topic: string, callback: CallbackId, accepted: bool)
    | UnsubscribeOp(topic: string, accepted: bool)
    | PublishOp(topic: string, payload: string, retained: bool, accepted: bool)
    | UpdateOp(cfg: Config, now: u32, accepted: bool)

  function Apply(m: Manager, op: Op): Manager
  {
    match op
    case BeginOp(cfg, id) => Begin(m, cfg, id).next
    case ConnectOp(cfg, accepted) => Connect(m, cfg, accepted).next
    case DisconnectOp => Disconnect(m).next
    case DropOp => Drop(m)
    case SubscribeOp(topic, callback, accepted) => Subscribe(m, topic, callback, accepted).next
    case UnsubscribeOp(topic, accepted) => Unsubscribe(m, topic, accepted).next
    case PublishOp(topic, payload, retained, accepted) => Publish(m, topic, payload, retained, accepted).next
    case UpdateOp(cfg, now, accepted) => Update(m, cfg, now, accepted).next
  }

  function Run(m: Manager, ops: seq<Op>): Manager
    decreases |ops|
  {
    if |ops| == 0 then m else Run(Apply(m, ops[0]), ops[1..])
  }

  /** Whatever the callers do, the registry never holds a topic twice. */
  lemma {:induction false} RegistryStaysUnique(m: Manager, ops: seq<Op>)
    requires UniqueTopics(m.subscriptions)
    ensures UniqueTopics(Run(m, ops).subscriptions)
    decreases |ops|
  {
    if |ops| > 0 {
      var next := Apply(m, ops[0]);
      assert UniqueTopics(next.subscriptions);
      RegistryStaysUnique(next, ops[1..]);
    }
  }

  /** Subscribing the same filter twice leaves one entry, and the second
      call reports failure without asking the transport. */
  lemma SubscribeTwice(m: Manager, topic: string, first: CallbackId, second: CallbackId, accepted: bool)
    requires m.connected && !Registered(m.subscriptions, topic)
    ensures var once := Subscribe(m, topic, first, true);
            var twice := Subscribe(once.next, topic, second, accepted);
            && !twice.ok
            && twice.calls == []
            && twice.next.subscriptions == m.subscriptions + [Subscription(topic, first)]
  {
    var once := Subscribe(m, topic, first, true);
    assert once.next.subscriptions[|m.subscriptions|].topic == topic;
  }
}

=== FILE: numerals.dfy ===
/** Positional numerals in base 10 (`%d`, `%lu`) and lower-case base 16
    (Arduino `String(value, HEX)`), with the value they denote. */
module Numerals {

  /** Value of one digit glyph, or -1 for a character that is not one. */
  function GlyphValue(c: char): int
  {
    if '0' <= c <= '9' then c as int - '0' as int
    else if 'a' <= c <= 'f' then c as int - 'a' as int + 10
    else -1
  }

  predicate IsDigit(c: char, base: nat)
  {
    0 <= GlyphValue(c) < base
  }

  predicate IsDecimalDigit(c: char)
  {
    '0' <= c <= '9'
  }

  predicate AllDigits(s: string, base: nat)
  {
    forall i :: 0 <= i < |s| ==> IsDigit(s[i], base)
  }

  predicate SupportedBase(base: nat)
  {
    2 <= base <= 16
  }

  /** The glyph printed for digit `d`. */
  function Glyph(d: nat): (c: char)
    requires d < 16
    ensures GlyphValue(c) == d
  {
    if d < 10 then ('0' as int + d) as char else ('a' as int + d - 10) as char
  }

  /** The number a digit string denotes, most significant digit first. */
  function Value(s: string, base: nat): nat
    requires AllDigits(s, base)
  {
    if |s| == 0 then 0 else Value(s[..|s| - 1], base) * base + GlyphValue(s[|s| - 1])
  }

  /** The shortest digit string of `n` (no leading zeros, "0" for zero);
      reading it back yields `n`. */
  function Render(n: nat, base: nat): (s: string)
    requires SupportedBase(base)
    ensures 0 < |s|
    ensures AllDigits(s, base)
    ensures Value(s, base) == n
    ensures 1 < |s| ==> s[0] != '0'
    decreases n
  {
    if n < base then
      var s := [Glyph(n)];
      assert s[..0] == [];
      s
    else
      DivSmaller(n, base);
      var prefix := Render(n / base, base);
      RenderStep(prefix, n, base);
      AppendDigit(prefix, n % base, base)
  }

  /** The inductive step of `Render`: the rendering of `n / base`
      followed by the digit `n % base` is a rendering of `n`. */
  lemma RenderStep(prefix: string, n: nat, base: nat)
    requires SupportedBase(base) && base <= n
    requires 0 < |prefix| && AllDigits(prefix, base)
    requires Value(prefix, base) == n / base
    requires 1 < |prefix| ==> prefix[0] != '0'
    ensures var s := AppendDigit(prefix, n % base, base);
            0 < |s| && AllDigits(s, base) && Value(s, base) == n && (1 < |s| ==> s[0] != '0')
  {
    var s := AppendDigit(prefix, n % base, base);
    DivMod(n, base);
    assert s[0] == prefix[0];
    NonZeroLead(prefix, base, n / base);
  }

  lemma DivSmaller(n: nat, base: nat)
    requires 2 <= base <= n
    ensures 0 < n / base < n
  {
    DivMod(n, base);
  }

  lemma DivBelow(n: nat, base: nat, p: nat)
    requires 0 < base && n < base * p
    ensures n / base < p
  {
    DivMod(n, base);
  }

  lemma DivMod(n: nat, base: nat)
    requires 0 < base
    ensures (n / base) * base + n % base == n
  {
  }

  /** A one-digit string denoting a positive number is not "0". */
  lemma NonZeroLead(s: string, base: nat, n: nat)
    requires 0 < |s| && AllDigits(s, base)
    requires Value(s, base) == n && 0 < n
    ensures |s| == 1 ==> s[0] != '0'
  {
    if |s| == 1 {
      assert s[..0] == [];
    }
  }

  /** One more digit at the end multiplies the value by the base and adds
      the digit. */
  function AppendDigit(prefix: string, d: nat, base: nat): (s: string)
    requires SupportedBase(base) && d < base
    requires AllDigits(prefix, base)
    ensures |s| == |prefix| + 1 && s[..|prefix|] == prefix
    ensures AllDigits(s, base)
    ensures Value(s, base) == Value(prefix, base) * base + d
  {
    var s := prefix + [Glyph(d)];
    assert s[..|s| - 1] == prefix;
    s
  }

  function Pow(base: nat, k: nat): nat
  {
    if k == 0 then 1 else base * Pow(base, k - 1)
  }

  /** A number below `base^k` renders in at most `k` digits. */
  lemma {:induction false} RenderLength(n: nat, base: nat, k: nat)
    requires SupportedBase(base)
    requires 0 < k && n < Pow(base, k)
    ensures |Render(n, base)| <= k
    decreases k
  {
    if base <= n {
      var p := Pow(base, k - 1);
      DivBelow(n, base, p);
      DivSmaller(n, base);
      RenderLength(n / base, base, k - 1);
    }
  }

  /** `%d` / `%lu` formatting of a non-negative number. */
  function Decimal(n: nat): (s: string)
    ensures 0 < |s|
    ensures AllDigits(s, 10)
    ensures forall i :: 0 <= i < |s| ==> IsDecimalDigit(s[i])
    ensures Value(s, 10) == n
  {
    Render(n, 10)
  }

  /** `%d` formatting of a signed number. */
  function SignedDecimal(n: int): (s: string)
    ensures 0 < |s|
    ensures n < 0 <==> s[0] == '-'
    ensures n < 0 ==> s[1..] == Decimal(-n)
    ensures 0 <= n ==> s == Decimal(n)
  {
    if n < 0 then "-" + Decimal(-n) else Decimal(n)
  }

  /** `String(n, HEX)`: lower-case hexadecimal without leading zeros. */
  function Hex(n: nat): (s: string)
    ensures 0 < |s|
    ensures AllDigits(s, 16)
    ensures Value(s, 16) == n
    ensures 1 < |s| ==> s[0] != '0'
  {
    Render(n, 16)
  }
}

=== FILE: topic_match.dfy ===
/** Topic-filter matching of the MQTT manager (`MQTTManager::matchTopic`).

    The firmware walks the filter and the topic with two cursors: a `+`
    skips the topic cursor to the next `/` (or the end) and moves the
    filter cursor by one character; a `#` met while topic characters
    remain matches everything; any other filter character must equal the
    topic character. The walk succeeds only when both cursors reach the end
    together. Strings are the characters before the C terminator. */
module TopicMatch {

  predicate IsWildcard(c: char)
  {
    c == '+' || c == '#'
  }

  /** A filter without `+` or `#`. */
  predicate IsLiteral(pattern: string)
  {
    forall i :: 0 <= i < |pattern| ==> !IsWildcard(pattern[i])
  }

  /** Index of the first `/` at or after `i`, or the end of `topic`. */
  function SegmentEnd(topic: string, i: nat): (j: nat)
    requires i <= |topic|
    ensures i <= j <= |topic|
    ensures j == |topic| || topic[j] == '/'
    ensures forall k :: i <= k < j ==> topic[k] != '/'
    decreases |topic| - i
  {
    if i == |topic| || topic[i] == '/' then i else SegmentEnd(topic, i + 1)
  }

  /** Reference semantics: the two-cursor walk, written as recursion on
      the parts of filter and topic that remain to be read. */
  predicate Matches(pattern: string, topic: string)
    decreases |pattern|
  {
    if |pattern| == 0 || |topic| == 0 then |pattern| == 0 && |topic| == 0
    else if pattern[0] == '+' then Matches(pattern[1..], topic[SegmentEnd(topic, 0)..])
    else if pattern[0] == '#' then true
    else if pattern[0] != topic[0] then false
    else Matches(pattern[1..], topic[1..])
  }

  /** `SegmentEnd` is the only position that ends the segment. */
  lemma SegmentEndIsFirstSlash(topic: string, i: nat, j: nat)
    requires i <= j <= |topic|
    requires j == |topic| || topic[j] == '/'
    requires forall k :: i <= k < j ==> topic[k] != '/'
    ensures SegmentEnd(topic, i) == j
  {
  }

  /** The segment end of a suffix, seen from the whole topic. */
  lemma SegmentEndOfSuffix(topic: string, t: nat)
    requires t <= |topic|
    ensures t + SegmentEnd(topic[t..], 0) == SegmentEnd(topic, t)
  {
    var j := SegmentEnd(topic, t);
    SegmentEndIsFirstSlash(topic[t..], 0, j - t);
  }

  /** The matcher itself: an index walk over both strings. */
  method MatchTopic(pattern: string, topic: string) returns (r: bool)
    ensures r == Matches(pattern, topic)
  {
    var p, t := 0, 0;
    while p < |pattern| && t < |topic|
      invariant 0 <= p <= |pattern| && 0 <= t <= |topic|
      invariant Matches(pattern, topic) == Matches(pattern[p..], topic[t..])
      decreases |pattern| - p
    {
      if pattern[p] == '+' {
        var start := t;
        while t < |topic| && topic[t] != '/'
          invariant start <= t <= |topic|
          invariant forall k :: start <= k < t ==> topic[k] != '/'
        {
          t := t + 1;
        }
        SegmentEndIsFirstSlash(topic, start, t);
        SegmentEndOfSuffix(topic, start);
        assert topic[start..][SegmentEnd(topic[start..], 0)..] == topic[t..];
        assert pattern[p..][1..] == pattern[p + 1..];
        p := p + 1;
      } else if pattern[p] == '#' {
        return true;
      } else if pattern[p] != topic[t] {
        return false;
      } else {
        assert pattern[p..][1..] == pattern[p + 1..];
        assert topic[t..][1..] == topic[t + 1..];
        p := p + 1;
        t := t + 1;
      }
    }
    r := p == |pattern| && t == |topic|;
  }

  /** A filter without wildcards matches exactly the identical topic
      (so "a/b" does not match "a/b/c"). */
  lemma {:induction false} LiteralMatchesOnlyItself(pattern: string, topic: string)
    requires IsLiteral(pattern)
    ensures Matches(pattern, topic) <==> pattern == topic
    decreases |pattern|
  {
    if |pattern| == 0 || |topic| == 0 {
    } else {
      assert !IsWildcard(pattern[0]);
      if pattern[0] == topic[0] {
        assert IsLiteral(pattern[1..]) by {
          forall i | 0 <= i < |pattern[1..]| ensures !IsWildcard(pattern[1..][i]) {
            assert pattern[1..][i] == pattern[i + 1];
          }
        }
        LiteralMatchesOnlyItself(pattern[1..], topic[1..]);
        if pattern[1..] == topic[1..] {
          assert pattern == [pattern[0]] + pattern[1..];
          assert topic == [topic[0]] + topic[1..];
        }
      }
    }
  }

  /** A `#` after a literal prefix matches exactly the topics that extend
      the prefix by at least one character: "a/#" matches "a/b/c/d" but
      not "a/". Whatever follows the `#` is never read. */
  lemma {:induction false} HashMatchesRemainder(prefix: string, rest: string, topic: string)
    requires IsLiteral(prefix)
    ensures Matches(prefix + "#" + rest, topic) <==> |prefix| < |topic| && topic[..|prefix|] == prefix
    decreases |prefix|
  {
    var pattern := prefix + "#" + rest;
    if |prefix| == 0 {
      assert pattern[0] == '#';
    } else if |topic| == 0 {
    } else {
      assert pattern[0] == prefix[0];
      assert !IsWildcard(prefix[0]);
      if prefix[0] == topic[0] {
        assert IsLiteral(prefix[1..]) by {
          forall i | 0 <= i < |prefix[1..]| ensures !IsWildcard(prefix[1..][i]) {
            assert prefix[1..][i] == prefix[i + 1];
          }
        }
        assert pattern[1..] == prefix[1..] + "#" + rest;
        HashMatchesRemainder(prefix[1..], rest, topic[1..]);
        if |prefix| < |topic| {
          assert topic[..|prefix|] == [topic[0]] + topic[1..][..|prefix| - 1];
          assert prefix == [prefix[0]] + prefix[1..];
        }
      } else {
        assert |prefix| < |topic| ==> topic[..|prefix|][0] != prefix[0];
      }
    }
  }

  /** A `+` met while topic characters remain consumes exactly one
      segment (the characters up to the next `/`) and matching continues
      after it. */
  lemma PlusConsumesOneSegment(rest: string, segment: string, after: string)
    requires forall k :: 0 <= k < |segment| ==> segment[k] != '/'
    requires after == [] || after[0] == '/'
    requires 0 < |segment + after|
    ensures Matches("+" + rest, segment + after) <==> Matches(rest, after)
  {
    var topic := segment + after;
    SegmentEndIsFirstSlash(topic, 0, |segment|);
    assert topic[|segment|..] == after;
    assert ("+" + rest)[1..] == rest;
  }

  /** A `+` never matches when the topic is already exhausted, so "a/+"
      does not match "a/". */
  lemma PlusNeedsARemainingCharacter(rest: string)
    ensures !Matches("+" + rest, "")
  {
  }

  /** "a/+/c" matches "a/b/c" but not "a/b/b/c": the `+` takes one
      segment only. */
  lemma SingleLevelExample()
    ensures Matches("a/+/c", "a/b/c")
    ensures !Matches("a/+/c", "a/b/b/c")
  {
    assert ("a/+/c")[1..] == "/+/c" && ("a/+/c")[2..] == "+/c";
    assert ("a/b/c")[1..] == "/b/c" && ("a/b/c")[2..] == "b/c";
    assert ("a/b/b/c")[1..] == "/b/b/c" && ("a/b/b/c")[2..] == "b/b/c";
    PlusConsumesOneSegment("/c", "b", "/c");
    LiteralMatchesOnlyItself("/c", "/c");
    PlusConsumesOneSegment("/c", "b", "/b/c");
    LiteralMatchesOnlyItself("/c", "/b/c");
  }

  /** "a/#" matches "a/b/c/d" but not "a/". */
  lemma MultiLevelExample()
    ensures Matches("a/#", "a/b/c/d")
    ensures !Matches("a/#", "a/")
  {
    assert "a/" + "#" + "" == "a/#";
    HashMatchesRemainder("a/", "", "a/b/c/d");
    HashMatchesRemainder("a/", "", "a/");
  }

  /** "a/+" does not match "a/", and "a/b" does not match "a/b/c". */
  lemma BoundaryExamples()
    ensures !Matches("a/+", "a/")
    ensures !Matches("a/b", "a/b/c")
  {
    assert ("a/+")[1..] == "/+" && ("a/+")[2..] == "+";
    assert ("a/")[1..] == "/" && ("a/")[2..] == "";
    PlusNeedsARemainingCharacter("");
    assert "+" + "" == "+";
    LiteralMatchesOnlyItself("a/b", "a/b/c");
  }
}

=== FILE: u32.dfy ===
/** Unsigned 32-bit millisecond arithmetic.

    Every timer of the firmware compares `now - last` computed on
    `uint32_t` values returned by `millis()`, so the subtraction wraps
    modulo 2^32 and the comparison stays correct when the clock overflows
    (about every 49.7 days). */
module U32 {

  const Modulus: int := 0x1_0000_0000

  type u32 = x: int | 0 <= x < Modulus

  /** `a - b` on `uint32_t`. */
  function Sub(a: u32, b: u32): (r: u32)
    ensures b <= a ==> r == a - b
    ensures a < b ==> r == a - b + Modulus
  {
    (a - b) % Modulus
  }

  /** `a + b` on `uint32_t`: the clock reading `b` milliseconds after `a`. */
  function Add(a: u32, b: u32): (r: u32)
    ensures a + b < Modulus ==> r == a + b
    ensures Modulus <= a + b ==> r == a + b - Modulus
  {
    (a + b) % Modulus
  }

  /** The timer test `now - last >= interval` shared by every periodic check. */
  predicate Elapsed(now: u32, last: u32, interval: u32)
  {
    Sub(now, last) >= interval
  }

  /** Wraparound safety: when the clock has advanced by `d` milliseconds
      since `last` (with or without overflowing), the subtraction sees
      exactly `d`, so the timer fires iff `d` reaches the interval. */
  lemma ElapsedAcrossOverflow(last: u32, d: u32, interval: u32)
    ensures Sub(Add(last, d), last) == d
    ensures Elapsed(Add(last, d), last, interval) <==> d >= interval
  {
  }
}

=== FILE: update_state.dfy ===
/** The over-the-air update controller (`UpdateState`): the check-interval
    gate, the phase machine, the release check with its asset selection,
    and the byte accounting of the chunked download into flash.

    The HTTP client, the JSON parser and the flash writer are abstracted to
    their answers: a `Reply` for the release query and a `Transfer` for the
    firmware download, whose `polls` give, per iteration of the copy loop,
    whether the connection is up, how many bytes the stream offers, how
    many the read returned and whether the flash write took them all. The
    current firmware version is a parameter. */
module UpdateState {
  import opened U32
  import opened Wrappers
  import Version

  datatype Phase = CheckVersion | Download | Install | Completed | Failed

  /** The members of the (singleton) update state that persist between
      ticks and between visits. */
  datatype Session = Session(
    phase: Phase,
    newVersion: string,
    downloadUrl: string,
    totalBytes: u32,
    lastUpdateCheck: u32)

  /** As constructed: phase CHECK_VERSION, no check yet, empty strings. */
  const Initial: Session := Session(CheckVersion, "", "", 0, 0)

  /** `enter`: back to CHECK_VERSION; everything else is kept, so the last
      check time survives leaving and re-entering the state. */
  function Enter(s: Session): (r: Session)
    ensures r.phase == CheckVersion
    ensures r.(phase := s.phase) == s
  {
    s.(phase := CheckVersion)
  }

  datatype Gate = Gate(pass: bool, session: Session)

  /** `checkUpdateConditions`: passes on the very first check or once
      `interval` has elapsed (wrapping subtraction), and stamps the check
      time exactly when it passes. */
  function CheckUpdateConditions(s: Session, now: u32, interval: u32): (r: Gate)
    ensures r.pass <==> s.lastUpdateCheck == 0 || Elapsed(now, s.lastUpdateCheck, interval)
    ensures r.session == if r.pass then s.(lastUpdateCheck := now) else s
  {
    if s.lastUpdateCheck == 0 || Elapsed(now, s.lastUpdateCheck, interval) then Gate(true, s.(lastUpdateCheck := now))
    else Gate(false, s)
  }

  /** One entry of the release's `assets` list. */
  datatype Asset = Asset(name: string, downloadUrl: string)

  /** The parsed release descriptor: `tag_name` (absent or null is `None`)
      and `assets`. */
  datatype Release = Release(tagName: Option<string>, assets: seq<Asset>)

  /** The answer to the release query: HTTP status, body, and the body as
      parsed JSON (`None` when deserialisation failed). */
  datatype Reply = Reply(httpCode: int, body: string, document: Option<Release>)

  const HttpOk: int := 200
  const HttpNotFound: int := 404
  const FirmwareName: string := "firmware.bin"

  /** The status the check reports. */
  datatype Report =
    | NoReleases
    | CheckFailed(code: int)
    | EmptyResponse
    | ParseFailed
    | NoVersionTag
    | NoFirmware
    | NewVersionAvailable(tag: string)
    | UpToDate
    | VersionUnreadable

  /** Position of the first asset at or after `i` named exactly
      "firmware.bin". */
  function FirmwareAssetFrom(assets: seq<Asset>, i: nat): (r: Option<nat>)
    requires i <= |assets|
    ensures r.Some? ==> i <= r.value < |assets| && assets[r.value].name == FirmwareName
    ensures r.Some? ==> forall j :: i <= j < r.value ==> assets[j].name != FirmwareName
    ensures r.None? <==> forall j :: i <= j < |assets| ==> assets[j].name != FirmwareName
    decreases |assets| - i
  {
    if i == |assets| then None
    else if assets[i].name == FirmwareName then Some(i)
    else FirmwareAssetFrom(assets, i + 1)
  }

  datatype Check = Check(session: Session, ok: bool, report: Report)

  /** `checkLatestRelease`: queries the release, selects the first asset
      named "firmware.bin" (remembering its URL even when the version then
      turns out not to be newer) and compares the tag with the current
      version. It succeeds only for a strictly newer readable version, and
      only then records the tag as `newVersion`. */
  function CheckLatestRelease(s: Session, current: string, reply: Reply): (r: Check)
    ensures r.session.phase == s.phase && r.session.lastUpdateCheck == s.lastUpdateCheck
    ensures r.session.totalBytes == s.totalBytes
    ensures reply.httpCode == HttpNotFound ==> r == Check(s, false, NoReleases)
    ensures reply.httpCode != HttpNotFound && reply.httpCode != HttpOk ==> r == Check(s, false, CheckFailed(reply.httpCode))
    ensures r.ok <==>
      && reply.httpCode == HttpOk && |reply.body| > 0
      && reply.document.Some? && reply.document.value.tagName.Some?
      && FirmwareAssetFrom(reply.document.value.assets, 0).Some?
      && Version.CompareVersion(s.newVersion, current, reply.document.value.tagName.value) == Some(true)
    ensures r.ok ==> r.report == NewVersionAvailable(reply.document.value.tagName.value)
    ensures r.ok ==> r.session.newVersion == reply.document.value.tagName.value
    ensures !r.ok ==> r.session.newVersion == s.newVersion
    // A readable, tagged release records the URL of its first firmware
    // asset, whatever the version comparison then says; nothing else
    // touches the URL.
    ensures if && reply.httpCode == HttpOk && |reply.body| > 0
               && reply.document.Some? && reply.document.value.tagName.Some?
               && FirmwareAssetFrom(reply.document.value.assets, 0).Some?
            then r.session.downloadUrl ==
              reply.document.value.assets[FirmwareAssetFrom(reply.document.value.assets, 0).value].downloadUrl
            else r.session.downloadUrl == s.downloadUrl
  {
    if reply.httpCode == HttpNotFound then Check(s, false, NoReleases)
    else if reply.httpCode != HttpOk then Check(s, false, CheckFailed(reply.httpCode))
    else if |reply.body| == 0 then Check(s, false, EmptyResponse)
    else if reply.document.None? then Check(s, false, ParseFailed)
    else if reply.document.value.tagName.None? then Check(s, false, NoVersionTag)
    else
      var tag := reply.document.value.tagName.value;
      var assets := reply.document.value.assets;
      match FirmwareAssetFrom(assets, 0)
      case None => Check(s, false, NoFirmware)
      case Some(i) =>
        var found := s.(downloadUrl := assets[i].downloadUrl);
        match Version.CompareVersion(s.newVersion, current, tag)
        case Some(true) => Check(found.(newVersion := tag), true, NewVersionAvailable(tag))
        case Some(false) => Check(found, false, UpToDate)
        case None => Check(found, false, VersionUnreadable)
  }

  /** Size of the copy buffer. */
  const ChunkSize: nat := 128

  /** One iteration of the copy loop as the controller sees it. */
  datatype Poll = Poll(connected: bool, available: nat, delivered: nat, writeOk: bool)

  /** The firmware download: HTTP status, `getSize()` (an `int`, -1 when
      unknown), whether the flash accepted the image size, the loop
      iterations, and whether finalising the image succeeded. */
  datatype Transfer = Transfer(httpCode: int, size: int, beginOk: bool, polls: seq<Poll>, endOk: bool)

  /** Bytes one iteration copies: at most the buffer, at most what the
      stream offered, and what the read actually returned. */
  function BytesRead(p: Poll): (n: nat)
    ensures n <= ChunkSize && n <= p.available && n <= p.delivered
    ensures n == p.delivered || n == p.available || n == ChunkSize
  {
    var asked := if p.available > ChunkSize then ChunkSize else p.available;
    if p.delivered < asked then p.delivered else asked
  }

  /** `int progress = (written * 100) / totalBytes` on 32-bit `size_t`:
      the product wraps, the quotient is converted to a signed `int`. */
  function Percent(written: nat, total: u32): (r: int)
    requires 0 < total
    // The figure always fits a signed 32-bit `int`.
    ensures -0x8000_0000 <= r < 0x8000_0000
  {
    var q := ((written * 100) % Modulus) / total;
    if q < 0x8000_0000 then q else q - Modulus
  }

  /** Integer division is bounded by the bound of the dividend. */
  lemma DivisionBound(x: nat, d: nat, c: nat)
    requires 0 < d && x <= c * d
    ensures x / d <= c
  {
    assert x == d * (x / d) + x % d;
  }

  /** For any image that fits in flash the wrap never happens and the
      progress is the true percentage, at most 100. */
  lemma PercentOfRealisticImage(written: nat, total: u32)
    requires 0 < total <= 0x28F_5C28
    requires written <= total
    ensures Percent(written, total) == written * 100 / total
    ensures 0 <= Percent(written, total) <= 100
  {
    var x := written * 100;
    assert x <= 100 * total < Modulus;
    SmallModulus(x);
    DivisionBound(x, total, 100);
  }

  lemma SmallModulus(x: nat)
    requires x < Modulus
    ensures x % Modulus == x
  {
  }

  /** What the copy loop did: the byte count it ended with, the size of
      each chunk written, the running count after each chunk, and whether
      a flash write came up short. */
  datatype Pumped = Pumped(written: nat, chunks: seq<nat>, marks: seq<nat>, writeError: bool)

  function Sum(s: seq<nat>): nat
  {
    if |s| == 0 then 0 else s[0] + Sum(s[1..])
  }

  /** Chunk by chunk from a count of `start`: each chunk starts below the
      total, and the running count after it is the count before it plus
      its size. */
  predicate Accounted(start: nat, chunks: seq<nat>, marks: seq<nat>, total: u32)
    decreases |chunks|
  {
    && |chunks| == |marks|
    && (0 < |chunks| ==>
          && start < total
          && marks[0] == start + chunks[0]
          && Accounted(marks[0], chunks[1..], marks[1..], total))
  }

  /** The copy loop `while (http.connected() && written < totalBytes)`
      from a count of `written` bytes. Running out of modelled iterations
      counts as the connection closing. Every chunk starts below the
      total, is at most one buffer, and adds exactly its size to the
      count; no chunk is read at or after a poll that finds the
      connection closed. */
  function Pump(total: u32, written: nat, polls: seq<Poll>): (r: Pumped)
    ensures |r.chunks| == |r.marks| <= |polls|
    ensures forall k :: 0 <= k < |r.chunks| ==> r.chunks[k] <= ChunkSize
    ensures Accounted(written, r.chunks, r.marks, total)
    ensures r.written == written + Sum(r.chunks)
    ensures forall k :: 0 <= k < |polls| && !polls[k].connected ==> |r.chunks| <= k
    ensures (forall k :: 0 <= k < |polls| ==> polls[k].writeOk) ==> !r.writeError
    decreases |polls|
  {
    if |polls| == 0 || !polls[0].connected || written >= total then Pumped(written, [], [], false)
    else if polls[0].available == 0 then
      var rest := Pump(total, written, polls[1..]);
      assert forall k :: 0 < k < |polls| ==> polls[1..][k - 1] == polls[k];
      rest
    else
      var n := BytesRead(polls[0]);
      if !polls[0].writeOk then Pumped(written, [], [], true)
      else
        var rest := Pump(total, written + n, polls[1..]);
        assert forall k :: 0 < k < |polls| ==> polls[1..][k - 1] == polls[k];
        var chunks, marks := [n] + rest.chunks, [written + n] + rest.marks;
        assert chunks[1..] == rest.chunks && marks[1..] == rest.marks;
        Pumped(rest.written, chunks, marks, rest.writeError)
  }

  /** The progress reported after each chunk, from the running counts. */
  function ProgressReports(marks: seq<nat>, total: u32): (r: seq<int>)
    requires 0 < |marks| ==> 0 < total
    ensures |r| == |marks|
    ensures forall k :: 0 <= k < |r| ==> r[k] == Percent(marks[k], total)
  {
    if |marks| == 0 then [] else [Percent(marks[0], total)] + ProgressReports(marks[1..], total)
  }

  /** Outcome of `downloadAndInstall`. `finalized` says whether
      `Update.end` was called, `aborted` whether `Update.abort` was, and
      `error` the message handed to the error state, if any. */
  datatype Installation = Installation(
    ok: bool,
    session: Session,
    chunks: seq<nat>,
    progress: seq<int>,
    finalized: bool,
    aborted: bool,
    error: Option<string>)

  /** `downloadAndInstall`. */
  function DownloadAndInstall(s: Session, t: Transfer): (r: Installation)
    // No URL: fail at once, nothing downloaded.
    ensures |s.downloadUrl| == 0 ==>
      r == Installation(false, s.(phase := Failed), [], [], false, false, Some("No download URL available"))
    // Every failure ends in phase FAILED; success leaves the phase to the caller.
    ensures !r.ok ==> r.session.phase == Failed
    ensures r.ok ==> r.session.phase == s.phase
    // Only the phase and the image size change; the URL, the tag and the
    // check stamp are kept. The size is the announced one, as `size_t`.
    ensures r.session == s.(phase := r.session.phase, totalBytes := r.session.totalBytes)
    ensures |s.downloadUrl| > 0 && t.httpCode == HttpOk ==> r.session.totalBytes == t.size % Modulus
    ensures |s.downloadUrl| == 0 || t.httpCode != HttpOk ==> r.session.totalBytes == s.totalBytes
    // Finalising is attempted exactly when the whole announced size was written.
    ensures r.finalized ==> Sum(r.chunks) == t.size % Modulus
    ensures r.ok <==> r.finalized && t.endOk
    ensures r.finalized <==>
      && |s.downloadUrl| > 0 && t.httpCode == HttpOk && t.beginOk
      && var p := Pump(t.size % Modulus, 0, t.polls);
         !p.writeError && p.written == t.size % Modulus
    // The flash write is aborted after a non-200 reply, a stream that ends
    // short, or a failed finalise; not after a missing URL, a refused
    // begin or a short flash write.
    ensures r.aborted <==>
      && |s.downloadUrl| > 0
      && (|| t.httpCode != HttpOk
          || (t.beginOk && !Pump(t.size % Modulus, 0, t.polls).writeError && !r.ok))
    // A short flash write fails before any finalising and is not aborted.
    ensures |s.downloadUrl| > 0 && t.httpCode == HttpOk && t.beginOk && Pump(t.size % Modulus, 0, t.polls).writeError ==>
      !r.ok && !r.finalized && !r.aborted && r.error == Some("Error writing to flash")
    // Each chunk is at most one buffer; a progress report follows each
    // chunk, and a final 100 follows success.
    ensures forall k :: 0 <= k < |r.chunks| ==> r.chunks[k] <= ChunkSize
    ensures |r.progress| == |r.chunks| + (if r.ok then 1 else 0)
    ensures 0 < |r.chunks| ==> 0 < r.session.totalBytes
    ensures forall k :: 0 <= k < |r.chunks| ==>
      r.progress[k] == Percent(Sum(r.chunks[..k + 1]), r.session.totalBytes)
    ensures r.ok ==> r.progress[|r.progress| - 1] == 100
  {
    if |s.downloadUrl| == 0 then
      Installation(false, s.(phase := Failed), [], [], false, false, Some("No download URL available"))
    else if t.httpCode != HttpOk then
      Installation(false, s.(phase := Failed), [], [], false, true, None)
    else
      var total: u32 := t.size % Modulus;
      var sized := s.(totalBytes := total);
      if !t.beginOk then
        Installation(false, sized.(phase := Failed), [], [], false, false, Some("Update could not begin"))
      else
        var p := Pump(total, 0, t.polls);
        ProgressFollowsChunks(p.chunks, p.marks, total);
        var progress := ProgressReports(p.marks, total);
        if p.writeError then
          Installation(false, sized.(phase := Failed), p.chunks, progress, false, false, Some("Error writing to flash"))
        else if p.written == total && t.endOk then
          Installation(true, sized, p.chunks, progress + [100], true, false, None)
        else
          Installation(false, sized.(phase := Failed), p.chunks, progress, p.written == total, true, None)
  }

  /** The running count after chunk `k` is the start plus the sizes of
      chunks 0..k. */
  lemma {:induction false} MarksArePrefixSums(start: nat, chunks: seq<nat>, marks: seq<nat>, total: u32, k: nat)
    requires Accounted(start, chunks, marks, total)
    requires k < |marks|
    ensures marks[k] == start + Sum(chunks[..k + 1])
    decreases k
  {
    if 0 < k {
      MarksArePrefixSums(marks[0], chunks[1..], marks[1..], total, k - 1);
      assert chunks[..k + 1][1..] == chunks[1..][..k];
    } else {
      assert chunks[..1][1..] == [];
    }
  }

  /** From a count of zero, each progress figure is computed from the
      bytes of all chunks so far, and a chunk implies a non-empty image. */
  lemma ProgressFollowsChunks(chunks: seq<nat>, marks: seq<nat>, total: u32)
    requires Accounted(0, chunks, marks, total)
    ensures 0 < |chunks| ==> 0 < total
    ensures forall k :: 0 <= k < |chunks| ==> marks[k] == Sum(chunks[..k + 1])
  {
    forall k | 0 <= k < |chunks|
      ensures marks[k] == Sum(chunks[..k + 1])
    {
      MarksArePrefixSums(0, chunks, marks, total, k);
    }
  }

  /** Chunks of at most one buffer each add up to at most that many buffers. */
  lemma {:induction false} SumBound(chunks: seq<nat>)
    requires forall k :: 0 <= k < |chunks| ==> chunks[k] <= ChunkSize
    ensures Sum(chunks) <= ChunkSize * |chunks|
  {
    if |chunks| > 0 {
      SumBound(chunks[1..]);
    }
  }

  /** A stream that drops after `k` iterations, too few to carry the
      announced size, ends in FAILED without the image being finalised. */
  lemma ShortStreamFails(s: Session, t: Transfer, k: nat)
    requires |s.downloadUrl| > 0 && t.httpCode == HttpOk && t.beginOk
    requires k < |t.polls| && !t.polls[k].connected
    requires ChunkSize * k < t.size % Modulus
    ensures !DownloadAndInstall(s, t).ok
    ensures !DownloadAndInstall(s, t).finalized
    ensures DownloadAndInstall(s, t).session.phase == Failed
    ensures DownloadAndInstall(s, t).aborted <==> !Pump(t.size % Modulus, 0, t.polls).writeError
  {
    var p := Pump(t.size % Modulus, 0, t.polls);
    SumBound(p.chunks);
    assert |p.chunks| <= k;
    assert ChunkSize * |p.chunks| <= ChunkSize * k;
  }

  /** Where the controller sends the device. */
  datatype Target = ToAction | ToError

  /** Everything one tick of the update state reads from outside. */
  datatype Env = Env(
    now: u32,
    interval: u32,
    currentVersion: string,
    reply: Reply,
    transfer: Transfer,
    flashFinished: bool)

  /** One tick: the new session, the state change requested (if any),
      whether the device restarts, and the messages handed to the error
      state. */
  datatype TickResult = TickResult(session: Session, next: Option<Target>, restart: bool, errors: seq<string>)

  /** `update`: the gate first, then one step of the phase machine. */
  function Tick(s: Session, env: Env): (r: TickResult)
    // A closed gate sends the device back to Action and changes nothing.
    ensures !CheckUpdateConditions(s, env.now, env.interval).pass ==>
      r == TickResult(s, Some(ToAction), false, [])
    ensures CheckUpdateConditions(s, env.now, env.interval).pass ==> r.session.lastUpdateCheck == env.now
    // CHECK_VERSION: DOWNLOAD on a newer release, otherwise back to Action.
    ensures CheckUpdateConditions(s, env.now, env.interval).pass && s.phase == CheckVersion ==>
      var c := CheckLatestRelease(s, env.currentVersion, env.reply);
      && r.session.phase == (if c.ok then Download else CheckVersion)
      && r.next == (if c.ok then None else Some(ToAction))
      // The URL and tag the check recorded are carried into the next phase.
      && r.session == c.session.(lastUpdateCheck := env.now, phase := r.session.phase)
    // DOWNLOAD: COMPLETED on success, FAILED otherwise; no state change yet.
    ensures CheckUpdateConditions(s, env.now, env.interval).pass && s.phase == Download ==>
      && r.next == None
      && r.session.phase == (if DownloadAndInstall(s, env.transfer).ok then Completed else Failed)
      && r.session == DownloadAndInstall(s, env.transfer).session.(lastUpdateCheck := env.now, phase := r.session.phase)
    // INSTALL does nothing.
    ensures CheckUpdateConditions(s, env.now, env.interval).pass && s.phase == Install ==>
      r == TickResult(s.(lastUpdateCheck := env.now), None, false, [])
    // COMPLETED restarts once the flash reports the image finished.
    ensures CheckUpdateConditions(s, env.now, env.interval).pass && s.phase == Completed ==>
      r == TickResult(s.(lastUpdateCheck := env.now), None, env.flashFinished, [])
    // FAILED reports the error and changes to the Error state.
    ensures CheckUpdateConditions(s, env.now, env.interval).pass && s.phase == Failed ==>
      r == TickResult(s.(lastUpdateCheck := env.now), Some(ToError), false, ["Update failed"])
    ensures r.restart ==> r.session.phase == Completed && r.next == None
  {
    var gate := CheckUpdateConditions(s, env.now, env.interval);
    if !gate.pass then TickResult(s, Some(ToAction), false, [])
    else
      var g := gate.session;
      match g.phase
      case CheckVersion =>
        var c := CheckLatestRelease(g, env.currentVersion, env.reply);
        if c.ok then TickResult(c.session.(phase := Download), None, false, [])
        else TickResult(c.session, Some(ToAction), false, [])
      case Download =>
        var d := DownloadAndInstall(g, env.transfer);
        var errors := if d.error.Some? then [d.error.value] else [];
        if d.ok then TickResult(d.session.(phase := Completed), None, false, errors)
        else TickResult(d.session, None, false, errors)
      case Install => TickResult(g, None, false, [])
      case Completed => TickResult(g, None, env.flashFinished, [])
      case Failed => TickResult(g, Some(ToError), false, ["Update failed"])
  }

  /** The gate is evaluated on every tick: a tick that comes less than
      `interval` after a tick that passed the gate (at a non-zero time)
      sends the device back to Action without acting on the new phase, so
      a DOWNLOAD reached by a successful check does not run on the next
      tick. */
  lemma GateClosesRightAfterAPass(s: Session, first: Env, second: Env)
    requires CheckUpdateConditions(s, first.now, first.interval).pass
    requires first.now != 0
    requires !Elapsed(second.now, first.now, second.interval)
    ensures var r1 := Tick(s, first);
            var r2 := Tick(r1.session, second);
            r2.next == Some(ToAction) && r2.session == r1.session
  {
  }

  /** A failed download, once the gate lets the next tick through, takes
      the device to the Error state. */
  lemma FailedDownloadLeadsToError(s: Session, first: Env, second: Env)
    requires s.phase == Download
    requires CheckUpdateConditions(s, first.now, first.interval).pass
    requires !DownloadAndInstall(s.(lastUpdateCheck := first.now), first.transfer).ok
    requires CheckUpdateConditions(Tick(s, first).session, second.now, second.interval).pass
    ensures Tick(Tick(s, first).session, second).next == Some(ToError)
  {
  }

  /** A 10,000-byte image whose stream drops after 5,000 bytes sent in
      128-byte chunks (39 full chunks and one of 8) fails without
      finalising the image, and the flash write is aborted. */
  lemma DisconnectAfter5000Bytes(s: Session, endOk: bool)
    requires |s.downloadUrl| > 0
    ensures var polls := seq(39, _ => Poll(true, 128, 128, true)) + [Poll(true, 8, 8, true), Poll(false, 0, 0, true)];
            var d := DownloadAndInstall(s, Transfer(HttpOk, 10000, true, polls, endOk));
            !d.ok && !d.finalized && d.aborted && d.session.phase == Failed
  {
    var polls := seq(39, _ => Poll(true, 128, 128, true)) + [Poll(true, 8, 8, true), Poll(false, 0, 0, true)];
    assert !polls[40].connected;
    ShortStreamFails(s, Transfer(HttpOk, 10000, true, polls, endOk), 40);
  }
}

=== FILE: version.dfy ===
/** Release version comparison of the update controller
    (`UpdateState::compareVersion`).

    A version is read with `sscanf("%d.%d.%d")` after an optional leading
    `v` has been skipped. The candidate's `v` is skipped when the
    controller's `newVersion` member (the version found by the previous
    successful check, empty before that) starts with `v`, not when the
    candidate itself does. The components are then compared major first;
    `sscanf` may fill only some of them, and the comparison is decided by
    those unless it reaches one that was not filled. */
module Version {
  import opened Wrappers
  import Numerals

  datatype Triple = Triple(major: nat, minor: nat, patch: nat)

  /** The three components in comparison order. */
  function Components(t: Triple): (c: seq<int>)
    ensures |c| == 3
  {
    [t.major, t.minor, t.patch]
  }

  /** Reference order: strictly greater, major first, then minor, then patch. */
  predicate Newer(a: Triple, b: Triple)
  {
    || a.major > b.major
    || (a.major == b.major && a.minor > b.minor)
    || (a.major == b.major && a.minor == b.minor && a.patch > b.patch)
  }

  /** Length of the run of decimal digits that starts `s`. */
  function DigitRun(s: string): (n: nat)
    ensures n <= |s|
    ensures forall i :: 0 <= i < n ==> Numerals.IsDecimalDigit(s[i])
    ensures n < |s| ==> !Numerals.IsDecimalDigit(s[n])
  {
    if |s| == 0 || !Numerals.IsDecimalDigit(s[0]) then 0 else 1 + DigitRun(s[1..])
  }

  /** The number the leading digit run of `s` denotes. */
  function LeadingNumber(s: string): nat
  {
    var n := DigitRun(s);
    assert Numerals.AllDigits(s[..n], 10);
    Numerals.Value(s[..n], 10)
  }

  /** One `%d` followed by the literal `.`: the number and the text after
      the dot, or `None` when either is missing. */
  function ReadComponent(s: string): Option<(nat, string)>
  {
    var n := DigitRun(s);
    if n == 0 || n == |s| || s[n] != '.' then None else Some((LeadingNumber(s), s[n + 1..]))
  }

  /** `sscanf(s, "%d.%d.%d", ...)` filling all three components: three
      digit runs separated by single dots; anything may follow the third. */
  function Parse(s: string): (r: Option<Triple>)
    // A version starts with a digit run closed by a dot, which gives the major.
    ensures r.Some? ==>
      && 0 < DigitRun(s) < |s| && s[DigitRun(s)] == '.'
      && r.value.major == LeadingNumber(s)
  {
    match ReadComponent(s)
    case None => None
    case Some((major, afterMajor)) =>
      match ReadComponent(afterMajor)
      case None => None
      case Some((minor, afterMinor)) =>
        if DigitRun(afterMinor) == 0 then None else Some(Triple(major, minor, LeadingNumber(afterMinor)))
  }

  /** The leading digit run of `s` is closed by a dot. */
  predicate Continues(s: string)
  {
    DigitRun(s) < |s| && s[DigitRun(s)] == '.'
  }

  /** The text after the leading digit run and its dot. */
  function Tail(s: string): (r: string)
    requires Continues(s)
    ensures |r| < |s|
  {
    s[DigitRun(s) + 1..]
  }

  /** The components `sscanf(s, "%d.%d.%d", ...)` fills, at most `k` of
      them: a digit run is read, and reading goes on past a following dot
      until a conversion fails. */
  function Fields(s: string, k: nat): (r: seq<nat>)
    ensures |r| <= k
    ensures 0 < |r| ==> r[0] == LeadingNumber(s)
    // Every component the text holds is read, up to `k`.
    ensures 0 < |r| <==> 0 < k && 0 < DigitRun(s)
    ensures 1 < |r| <==> 1 < k && 0 < DigitRun(s) && Continues(s) && 0 < DigitRun(Tail(s))
    ensures 1 < |r| ==> Continues(s) && r[1..] == Fields(Tail(s), k - 1)
    decreases k
  {
    var n := DigitRun(s);
    if k == 0 || n == 0 then []
    else if k == 1 || !Continues(s) then [LeadingNumber(s)]
    else
      var rest := Fields(Tail(s), k - 1);
      assert ([LeadingNumber(s)] + rest)[1..] == rest;
      [LeadingNumber(s)] + rest
  }

  /** What the source's `sscanf` leaves filled in its three-element array:
      a prefix of the components, all three exactly when the text reads as
      a version. */
  function Scan(s: string): (r: seq<nat>)
    ensures |r| <= 3
    ensures |r| == 3 <==> Parse(s).Some?
    ensures |r| == 3 ==> r == Components(Parse(s).value)
  {
    Fields(s, 3)
  }

  /** The canonical text of a version, "major.minor.patch". */
  function Format(t: Triple): string
  {
    Numerals.Decimal(t.major) + "." + Numerals.Decimal(t.minor) + "." + Numerals.Decimal(t.patch)
  }

  /** A digit string followed by a non-digit (or nothing) is read whole. */
  lemma {:induction false} DigitRunOfNumeral(digits: string, rest: string)
    requires forall i :: 0 <= i < |digits| ==> Numerals.IsDecimalDigit(digits[i])
    requires rest == [] || !Numerals.IsDecimalDigit(rest[0])
    ensures DigitRun(digits + rest) == |digits|
    decreases |digits|
  {
    if |digits| > 0 {
      assert (digits + rest)[1..] == digits[1..] + rest;
      DigitRunOfNumeral(digits[1..], rest);
    }
  }

  /** A number printed by `%d` and followed by a non-digit reads back. */
  lemma LeadingNumberOfDecimal(n: nat, rest: string)
    requires rest == [] || !Numerals.IsDecimalDigit(rest[0])
    ensures DigitRun(Numerals.Decimal(n) + rest) == |Numerals.Decimal(n)|
    ensures LeadingNumber(Numerals.Decimal(n) + rest) == n
  {
    var d := Numerals.Decimal(n);
    DigitRunOfNumeral(d, rest);
    assert (d + rest)[..|d|] == d;
  }

  /** A printed number followed by a dot reads back, leaving the rest. */
  lemma ReadComponentOfDecimal(n: nat, rest: string)
    ensures ReadComponent(Numerals.Decimal(n) + "." + rest) == Some((n, rest))
  {
    var d := Numerals.Decimal(n);
    var s := d + "." + rest;
    assert s == d + ("." + rest);
    LeadingNumberOfDecimal(n, "." + rest);
    assert s[|d|] == '.';
    assert s[|d| + 1..] == rest;
  }

  /** Round trip: the canonical text parses back to the same triple. */
  lemma ParseFormat(t: Triple)
    ensures Parse(Format(t)) == Some(t)
  {
    var a, b, c := Numerals.Decimal(t.major), Numerals.Decimal(t.minor), Numerals.Decimal(t.patch);
    assert Format(t) == a + "." + (b + "." + c);
    ReadComponentOfDecimal(t.major, b + "." + c);
    ReadComponentOfDecimal(t.minor, c);
    LeadingNumberOfDecimal(t.patch, "");
    assert c + "" == c;
  }

  /** The comparison loop from component `i` on: the first differing
      component decides, and equal versions are not newer. */
  function ScanFrom(candidate: seq<int>, current: seq<int>, i: nat): (r: bool)
    requires |candidate| == |current| == 3 && i <= 3
    ensures r <==> exists j :: i <= j < 3 && candidate[j] > current[j]
                     && forall k :: i <= k < j ==> candidate[k] == current[k]
    decreases 3 - i
  {
    if i == 3 then false
    else if candidate[i] > current[i] then true
    else if candidate[i] < current[i] then false
    else ScanFrom(candidate, current, i + 1)
  }

  /** The loop decides exactly the reference order. */
  lemma ScanIsNewer(candidate: Triple, current: Triple)
    ensures ScanFrom(Components(candidate), Components(current), 0) <==> Newer(candidate, current)
  {
  }

  /** From component `i` on, the two arrays agree wherever both are filled. */
  predicate AgreeFrom(candidate: seq<nat>, current: seq<nat>, i: nat)
  {
    forall k :: i <= k < |candidate| && k < |current| ==> candidate[k] == current[k]
  }

  /** From component `i` on, the first filled component where the arrays
      differ is larger in the candidate. */
  predicate LargerFrom(candidate: seq<nat>, current: seq<nat>, i: nat)
  {
    exists j :: i <= j < |candidate| && j < |current| && candidate[j] > current[j]
                && forall k :: i <= k < j ==> candidate[k] == current[k]
  }

  /** The comparison loop on arrays `sscanf` filled only partly: `None`
      when the loop reaches a component that was not filled (the source
      then reads an uninitialised integer), otherwise its answer. */
  function Decide(candidate: seq<nat>, current: seq<nat>, i: nat): (r: Option<bool>)
    requires |candidate| <= 3 && |current| <= 3
    requires i <= |candidate| && i <= |current|
    ensures |candidate| == |current| == 3 ==> r == Some(ScanFrom(candidate, current, i))
    ensures r.None? <==> (|candidate| < 3 || |current| < 3) && AgreeFrom(candidate, current, i)
    ensures r == Some(true) <==> LargerFrom(candidate, current, i)
    decreases 3 - i
  {
    if i == 3 then Some(false)
    else if i == |candidate| || i == |current| then None
    else if candidate[i] > current[i] then Some(true)
    else if candidate[i] < current[i] then Some(false)
    else Decide(candidate, current, i + 1)
  }

  /** `newer` is a strict total order on versions. */
  lemma NewerIsStrictTotalOrder(a: Triple, b: Triple, c: Triple)
    ensures !Newer(a, a)
    ensures Newer(a, b) ==> !Newer(b, a)
    ensures Newer(a, b) && Newer(b, c) ==> Newer(a, c)
    ensures a != b ==> Newer(a, b) || Newer(b, a)
  {
  }

  predicate StartsWithV(s: string)
  {
    0 < |s| && s[0] == 'v'
  }

  /** Advancing a `const char*` by one; on an empty string the model stays
      put (the source would step past the terminator). */
  function SkipFirst(s: string): string
  {
    if |s| == 0 then s else s[1..]
  }

  /** `compareVersion(current, candidate)` with the controller's
      `newVersion` member `member`: `Some(true)` when an update is
      available, `Some(false)` when the candidate is equal or older, and
      `None` when the comparison reaches a component `sscanf` did not fill
      (the source then compares an uninitialised integer). */
  function CompareVersion(member: string, current: string, candidate: string): (r: Option<bool>)
    ensures |candidate| == 0 ==> r.None?
    ensures var cand := if StartsWithV(member) then SkipFirst(candidate) else candidate;
            var cur := if StartsWithV(current) then current[1..] else current;
            && (Parse(cur).Some? && Parse(cand).Some? ==> r == Some(Newer(Parse(cand).value, Parse(cur).value)))
            && var a, b := Scan(cand), Scan(cur);
               && (r.None? <==> (|a| < 3 || |b| < 3) && AgreeFrom(a, b, 0))
               && (r == Some(true) <==> LargerFrom(a, b, 0))
  {
    var cand := if StartsWithV(member) then SkipFirst(candidate) else candidate;
    var cur := if StartsWithV(current) then current[1..] else current;
    var a, b := Scan(cand), Scan(cur);
    assert |candidate| == 0 ==> cand == "" && |a| == 0;
    if |a| == 3 && |b| == 3 then
      ScanIsNewer(Parse(cand).value, Parse(cur).value);
      Decide(a, b, 0)
    else Decide(a, b, 0)
  }

  /** Stripping the optional `v` from a canonical text, both as the
      current version and as the candidate, gives the canonical text back. */
  lemma StripPrefix(t: Triple, prefixed: bool)
    ensures var f := Format(t);
            var text := (if prefixed then "v" else "") + f;
            && (if StartsWithV(text) then text[1..] else text) == f
            && (if prefixed then SkipFirst(text) else text) == f
  {
    var f := Format(t);
    assert f[0] != 'v';
    assert ("v" + f)[1..] == f;
    assert "" + f == f;
  }

  /** When the member and the candidate agree on the `v` prefix, and the
      current version is written with or without `v`, the comparison is
      the intended one. */
  lemma CompareCanonical(member: string, current: Triple, candidate: Triple, currentV: bool)
    ensures var cur := (if currentV then "v" else "") + Format(current);
            var cand := (if StartsWithV(member) then "v" else "") + Format(candidate);
            CompareVersion(member, cur, cand) == Some(Newer(candidate, current))
  {
    ParseFormat(current);
    ParseFormat(candidate);
    StripPrefix(current, currentV);
    StripPrefix(candidate, StartsWithV(member));
  }

  /** The digit character of a single-digit number. */
  function DigitChar(d: nat): char
    requires d < 10
  {
    ('0' as int + d) as char
  }

  /** A single-digit version spelled out character by character is its
      canonical text. */
  lemma FormatSingleDigits(t: Triple, text: string)
    requires t.major < 10 && t.minor < 10 && t.patch < 10
    requires text == [DigitChar(t.major), '.', DigitChar(t.minor), '.', DigitChar(t.patch)]
    ensures text == Format(t)
  {
  }

  /** A single digit character reads as its digit. */
  lemma DigitValue(d: nat)
    requires d < 10
    ensures Numerals.IsDecimalDigit(DigitChar(d))
    ensures Numerals.Value([DigitChar(d)], 10) == d
  {
    var s := [DigitChar(d)];
    assert s[..0] == [];
    assert Numerals.GlyphValue(DigitChar(d)) == d;
  }

  /** `sscanf` fills exactly two components from "x.y" with single digits. */
  lemma ScanTwoDigits(major: nat, minor: nat, text: string)
    requires major < 10 && minor < 10
    requires text == [DigitChar(major), '.', DigitChar(minor)]
    ensures Scan(text) == [major, minor]
  {
    assert DigitRun(text) == 1 by {
      assert DigitRun(text[1..]) == 0;
    }
    DigitValue(major);
    assert text[..1] == [DigitChar(major)];
    assert LeadingNumber(text) == major;
    var rest := text[2..];
    assert rest == [DigitChar(minor)];
    assert DigitRun(rest) == 1;
    DigitValue(minor);
    assert rest[..1] == rest;
    assert LeadingNumber(rest) == minor;
  }

  /** The `v` quirk: before any update was found (`member` empty) a
      `v`-prefixed tag is not stripped and does not read as a version,
      while after a `v`-prefixed update the next plain tag loses its first
      digit. */
  lemma VPrefixQuirk()
    ensures CompareVersion("", "1.0.0", "v1.0.2") == None
    ensures CompareVersion("v1.0.1", "1.0.0", "v1.0.2") == Some(true)
    ensures CompareVersion("v1.0.1", "1.0.0", "1.0.2") == None
  {
    assert DigitRun("v1.0.2") == 0;
    assert Parse("v1.0.2") == None;
    assert SkipFirst("1.0.2") == ".0.2";
    assert DigitRun(".0.2") == 0;
    assert Parse(".0.2") == None;
    FormatSingleDigits(Triple(1, 0, 0), "1.0.0");
    FormatSingleDigits(Triple(1, 0, 2), "1.0.2");
    CompareCanonical("v1.0.1", Triple(1, 0, 0), Triple(1, 0, 2), false);
    assert "" + "1.0.0" == "1.0.0";
  }

  /** A newer patch level is an available update. */
  lemma NewerPatchExample()
    ensures CompareVersion("", "1.0.1", "1.0.2") == Some(true)
  {
    FormatSingleDigits(Triple(1, 0, 1), "1.0.1");
    FormatSingleDigits(Triple(1, 0, 2), "1.0.2");
    CompareCanonical("", Triple(1, 0, 1), Triple(1, 0, 2), false);
    assert "" + "1.0.1" == "1.0.1" && "" + "1.0.2" == "1.0.2";
  }

  /** An older minor version is not, whatever its patch level. */
  lemma OlderMinorExample()
    ensures CompareVersion("", "1.2.0", "1.1.9") == Some(false)
  {
    FormatSingleDigits(Triple(1, 2, 0), "1.2.0");
    FormatSingleDigits(Triple(1, 1, 9), "1.1.9");
    CompareCanonical("", Triple(1, 2, 0), Triple(1, 1, 9), false);
    assert "" + "1.2.0" == "1.2.0" && "" + "1.1.9" == "1.1.9";
  }

  /** The current version's `v` is always stripped, so equal versions
      compare equal. */
  lemma StrippedEqualExample()
    ensures CompareVersion("", "v1.0.0", "1.0.0") == Some(false)
  {
    FormatSingleDigits(Triple(1, 0, 0), "1.0.0");
    ParseFormat(Triple(1, 0, 0));
    assert StartsWithV("v1.0.0") && "v1.0.0"[1..] == "1.0.0";
    assert !StartsWithV("");
  }

  /** A tag `sscanf` reads only partly still decides when the components
      it did fill differ: "1.1" is newer than "1.0.0" at the minor. */
  lemma PartialTagExample()
    ensures CompareVersion("", "1.0.0", "1.1") == Some(true)
  {
    FormatSingleDigits(Triple(1, 0, 0), "1.0.0");
    ParseFormat(Triple(1, 0, 0));
    ScanTwoDigits(1, 1, "1.1");
    assert Decide([1, 1], [1, 0, 0], 0) == Some(true);
  }

  /** When the filled components agree, the loop reaches the one that was
      not filled, and the answer is undefined. */
  lemma PartialTagUndecided()
    ensures CompareVersion("", "1.0.0", "1.0") == None
  {
    FormatSingleDigits(Triple(1, 0, 0), "1.0.0");
    ParseFormat(Triple(1, 0, 0));
    ScanTwoDigits(1, 0, "1.0");
    assert Decide([1, 0], [1, 0, 0], 0) == None;
  }
}

=== FILE: wifi_manager.dfy ===
/** The link-layer connection manager (`WiFiManager`): a status machine
    with an attempt counter, a hard attempt cap and timer-gated retries.

    The radio is abstracted to one boolean per step, `linkUp`, standing for
    `WiFi.status() == WL_CONNECTED`; requests to the radio are recorded as
    `DriverCall`s. Both `millis()` reads inside one `update` are taken to
    return the same `now`. */
module WifiManager {
  import opened U32

  /** `WiFiStatus`; the constructor starts in `Disconnected`. */
  datatype Status =
    | Uninitialized
    | Disconnected
    | Connecting
    | Connected
    | ConnectionFailed
    | WrongPassword
    | NoSsidAvailable

  /** The tunables the manager reads from the runtime configuration. The
      width of `maxConnectionAttempts` is not visible in the source, so it
      is an unbounded number compared against the 8-bit counter. */
  datatype Config = Config(
    ssid: string,
    password: string,
    autoReconnect: bool,
    checkInterval: u32,
    reconnectInterval: u32,
    maxConnectionAttempts: nat)

  /** `connectionAttempts` is a `uint8_t`. */
  type u8 = x: int | 0 <= x < 256

  datatype Manager = Manager(status: Status, lastAttempt: u32, connectionAttempts: u8)

  const Initial: Manager := Manager(Disconnected, 0, 0)

  /** Requests the manager makes of the radio driver. */
  datatype DriverCall = StationMode | Associate(ssid: string, password: string) | Dissociate

  datatype Step = Step(next: Manager, calls: seq<DriverCall>)

  /** Why `begin` refused to start. */
  datatype BeginOutcome = Started | MissingSsid | MissingPassword

  /** `begin`: an empty SSID or an empty password stops initialisation
      before the radio is touched; the SSID is checked first. */
  function Begin(cfg: Config): (r: (BeginOutcome, seq<DriverCall>))
    ensures r.0 == Started <==> |cfg.ssid| > 0 && |cfg.password| > 0
    ensures r.0 == MissingSsid <==> |cfg.ssid| == 0
    ensures r.1 == if r.0 == Started then [StationMode] else []
  {
    if |cfg.ssid| == 0 then (MissingSsid, [])
    else if |cfg.password| == 0 then (MissingPassword, [])
    else (Started, [StationMode])
  }

  /** `isConnected`: the manager's own status and the driver must agree. */
  predicate IsConnected(m: Manager, linkUp: bool)
  {
    m.status == Connected && linkUp
  }

  /** `connect`: a no-op success when already connected; otherwise it
      starts association and enters `Connecting` with one attempt counted
      at time `now`. It never reports failure. */
  function Connect(m: Manager, cfg: Config, now: u32): (r: (Step, bool))
    ensures r.1
    ensures m.status == Connected ==> r.0 == Step(m, [])
    ensures m.status != Connected ==>
      r.0 == Step(Manager(Connecting, now, 1), [Associate(cfg.ssid, cfg.password)])
  {
    if m.status == Connected then (Step(m, []), true)
    else (Step(Manager(Connecting, now, 1), [Associate(cfg.ssid, cfg.password)]), true)
  }

  /** `disconnect`: always ends in `Disconnected`, counters untouched. */
  function Disconnect(m: Manager): (r: Step)
    ensures r.next.status == Disconnected
    ensures r.next.lastAttempt == m.lastAttempt && r.next.connectionAttempts == m.connectionAttempts
    ensures r.calls == [Dissociate]
  {
    Step(m.(status := Disconnected), [Dissociate])
  }

  /** `update`, once per loop. */
  function Update(m: Manager, cfg: Config, linkUp: bool, now: u32): (r: Step)
    // Connecting, link up: connected, counter cleared.
    ensures m.status == Connecting && linkUp ==>
      r == Step(m.(status := Connected, connectionAttempts := 0), [])
    // Connecting, link down, interval not yet elapsed: nothing happens.
    ensures m.status == Connecting && !linkUp && !Elapsed(now, m.lastAttempt, cfg.checkInterval) ==>
      r == Step(m, [])
    // Connecting, link down, interval elapsed: one more attempt counted;
    // the cap is reached exactly when the new count meets the maximum.
    ensures m.status == Connecting && !linkUp && Elapsed(now, m.lastAttempt, cfg.checkInterval) ==>
      && r.calls == []
      && r.next.lastAttempt == now
      && r.next.connectionAttempts == (m.connectionAttempts + 1) % 256
      && (r.next.status == ConnectionFailed <==> r.next.connectionAttempts >= cfg.maxConnectionAttempts)
      && (r.next.status != ConnectionFailed ==> r.next.status == Connecting)
    // Connected, link lost: disconnected, reconnecting at once only when
    // allowed and the reconnect interval has elapsed since the last attempt.
    ensures m.status == Connected && !linkUp ==>
      if cfg.autoReconnect && Elapsed(now, m.lastAttempt, cfg.reconnectInterval) then
        r == Step(Manager(Connecting, now, 1), [Associate(cfg.ssid, cfg.password)])
      else
        r == Step(m.(status := Disconnected), [])
    // Every other status, and Connected with the link up, is inert.
    ensures m.status !in {Connecting, Connected} || (m.status == Connected && linkUp) ==> r == Step(m, [])
  {
    if m.status == Connecting then
      if linkUp then Step(m.(status := Connected, connectionAttempts := 0), [])
      else if Elapsed(now, m.lastAttempt, cfg.checkInterval) then
        var attempts: u8 := (m.connectionAttempts + 1) % 256;
        var status := if attempts >= cfg.maxConnectionAttempts then ConnectionFailed else Connecting;
        Step(Manager(status, now, attempts), [])
      else Step(m, [])
    else if m.status == Connected && !linkUp then
      var lost := m.(status := Disconnected);
      if cfg.autoReconnect && Elapsed(now, m.lastAttempt, cfg.reconnectInterval) then Connect(lost, cfg, now).0
      else Step(lost, [])
    else Step(m, [])
  }

  /** After one `update`, `isConnected` holds exactly when the driver
      reports a link and the manager was already connected or was
      connecting; a lost link is never reported as connected. */
  lemma ConnectedAfterUpdate(m: Manager, cfg: Config, linkUp: bool, now: u32)
    ensures IsConnected(Update(m, cfg, linkUp, now).next, linkUp) <==>
            linkUp && (m.status == Connecting || m.status == Connected)
  {
  }

  /** `getWifiStatusString`. The switch has no case for `UNINITIALIZED`,
      which therefore prints as "UNKNOWN". */
  function StatusString(s: Status): (r: string)
    ensures r == "UNKNOWN" <==> s == Uninitialized
  {
    match s
    case Disconnected => "DISCONNECTED"
    case Connecting => "CONNECTING"
    case Connected => "CONNECTED"
    case ConnectionFailed => "CONNECTION_FAILED"
    case WrongPassword => "WRONG_PASSWORD"
    case NoSsidAvailable => "NO_SSID_AVAILABLE"
    case Uninitialized => "UNKNOWN"
  }

  /** Distinct statuses print differently. */
  lemma StatusStringInjective(s: Status, t: Status)
    requires StatusString(s) == StatusString(t)
    ensures s == t
  {
  }

  /** One loop iteration as seen by the manager: the driver's link report
      and the clock. */
  datatype Tick = Tick(linkUp: bool, now: u32)

  /** `update` applied once per tick. */
  function Run(m: Manager, cfg: Config, ticks: seq<Tick>): Manager
    decreases |ticks|
  {
    if |ticks| == 0 then m else Run(Update(m, cfg, ticks[0].linkUp, ticks[0].now).next, cfg, ticks[1..])
  }

  /** Statuses only `connect` can leave. */
  predicate Inert(s: Status)
  {
    s in {Disconnected, ConnectionFailed, WrongPassword, NoSsidAvailable}
  }

  /** `update` alone never leaves `ConnectionFailed`, `Disconnected`,
      `WrongPassword` or `NoSsidAvailable`: the cap is a hard stop. */
  lemma {:induction false} InertStatusesStay(m: Manager, cfg: Config, ticks: seq<Tick>)
    requires Inert(m.status)
    ensures Run(m, cfg, ticks) == m
    decreases |ticks|
  {
    if |ticks| > 0 {
      InertStatusesStay(Update(m, cfg, ticks[0].linkUp, ticks[0].now).next, cfg, ticks[1..]);
    }
  }

  /** Each tick comes at least `interval` after the one before it (the
      first one after `last`), measured with wrapping subtraction, and the
      link stays down. */
  predicate FailedPolls(last: u32, ticks: seq<Tick>, interval: u32)
  {
    && (forall k :: 0 <= k < |ticks| ==> !ticks[k].linkUp)
    && (0 < |ticks| ==> Elapsed(ticks[0].now, last, interval))
    && (forall k :: 0 < k < |ticks| ==> Elapsed(ticks[k].now, ticks[k - 1].now, interval))
  }

  /** The attempt cap: from `Connecting` with `a` attempts counted, each
      elapsed poll without a link counts one more; the manager stays
      `Connecting` until the count meets `maxConnectionAttempts` and is
      `ConnectionFailed` from that poll on. After `connect` (a = 1) this
      takes `maxConnectionAttempts - 1` polls. */
  lemma {:induction false} AttemptCap(m: Manager, cfg: Config, ticks: seq<Tick>)
    requires m.status == Connecting
    requires m.connectionAttempts < cfg.maxConnectionAttempts <= 255
    requires |ticks| <= cfg.maxConnectionAttempts - m.connectionAttempts
    requires FailedPolls(m.lastAttempt, ticks, cfg.checkInterval)
    ensures Run(m, cfg, ticks).connectionAttempts == m.connectionAttempts + |ticks|
    ensures Run(m, cfg, ticks).status ==
      if m.connectionAttempts + |ticks| == cfg.maxConnectionAttempts then ConnectionFailed else Connecting
    decreases |ticks|
  {
    if |ticks| > 0 {
      assert !ticks[0].linkUp && Elapsed(ticks[0].now, m.lastAttempt, cfg.checkInterval);
      var next := Update(m, cfg, ticks[0].linkUp, ticks[0].now).next;
      assert next.connectionAttempts == m.connectionAttempts + 1;
      if next.connectionAttempts == cfg.maxConnectionAttempts {
        assert next.status == ConnectionFailed;
        InertStatusesStay(next, cfg, ticks[1..]);
      } else {
        assert FailedPolls(next.lastAttempt, ticks[1..], cfg.checkInterval) by {
          forall k | 0 < k < |ticks[1..]|
            ensures Elapsed(ticks[1..][k].now, ticks[1..][k - 1].now, cfg.checkInterval)
          {
            assert ticks[1..][k] == ticks[k + 1] && ticks[1..][k - 1] == ticks[k];
          }
          if 1 < |ticks| {
            assert ticks[1..][0] == ticks[1];
          }
        }
        AttemptCap(next, cfg, ticks[1..]);
      }
    }
  }

  /** `Connected` is reached only from `Connecting` on a link-up report,
      and then the counter is zero. */
  lemma ConnectedOnlyFromConnecting(m: Manager, cfg: Config, linkUp: bool, now: u32)
    requires m.status != Connected
    requires Update(m, cfg, linkUp, now).next.status == Connected
    ensures m.status == Connecting && linkUp
    ensures Update(m, cfg, linkUp, now).next.connectionAttempts == 0
  {
  }
}

=== FILE: wrappers.dfy ===
/** Small failure-compatible wrapper shared by the firmware model. */
module Wrappers {

  /** An optional value: `None` stands for a null pointer, a missing JSON
      field or an input the firmware cannot interpret. */
  datatype Option<+T> = None | Some(value: T)
}
